=== FILE: README.md ===
# GEO → PubMed → clinical-trial pipeline, modelled in Dafny

`app.py` is a small Streamlit app. It searches NCBI GEO for a keyword and
collects the GEO series accessions (`GSE…`) the search finds. It then reads
the PubMed ids linked from each accession's landing page, fetches each
PubMed page once, and records the clinical-trial registry number (`NCT…`)
and the publication date found there. Finally it keeps the rows whose date
lies within a chosen range and whose registry number is well-formed.

This project models that pipeline's logic as pure functions and short
methods. Remote calls are not performed. Each one becomes a parameter that
lists what successive calls return (`Attempt`: `Returned`, `Retryable`,
`Fatal`) or what a page looks like to the parser.

Modules:

- `Numbers`: ceiling division and page offsets.
- `Strings`: Python's character classes, `strip`, `split`/`join` and a
  leftmost-match scan for `literal + \d{n}` patterns.
- `Order`: Python's `<` on strings and `sorted(set(…))`.
- `Retry`: the bounded `for attempt in range(retries)` loops.
- `Keyword`: `sanitize_keyword`.
- `Geo`: `search_geo_accessions`, `fetch_geo_accession_details` and the
  pagination loop of `fetch_all_geo_accessions`.
- `PubmedLinks`: `fetch_pubmed_data` and `fetch_pubmed_ids_from_geo`.
- `Dates`: `get_publication_date`.
- `Details`: `search_nct_in_abstract` and `process_pubmed_ids`.
- `Filter`: `filter_nct`.

## Model

| member | source | states |
|---|---|---|
| Keyword.Sanitize | app.py:19-20 | the result is as long as the stripped keyword; word characters are kept, every other character becomes `_`, and only word characters remain |
| Keyword.SanitizeIdempotent | app.py:19-20 | sanitising a sanitised keyword changes nothing |
| Keyword.SanitizeKeepsWords | app.py:19-20 | a keyword made only of word characters passes through unchanged |
| Strings.WordCharIsNotSpace | app.py:20 | no character of `[A-Za-z0-9_]` is whitespace, so `strip` never removes one |
| Strings.IsSpace | app.py:20 | definition: the characters for which `str.isspace` holds, which `strip()` removes |
| Strings.LeadingSpace | app.py:20 | counts exactly the run of whitespace at the front |
| Strings.TrailingSpace | app.py:20 | counts exactly the run of whitespace at the back |
| Strings.Strip | app.py:142 | `str.strip()`: the result is the middle slice, everything cut off is whitespace, and the result neither starts nor ends with whitespace |
| Strings.StripNoSpace | app.py:142 | a string without whitespace is its own strip |
| Strings.StripBlankWord | app.py:142 | stripping `" " + w` gives back a whitespace-free `w` |
| Strings.Join | app.py:94 | definition: `sep.join(parts)`, the parts in order with `sep` between neighbours |
| Strings.JoinEnds | app.py:94 | `", ".join(ids)` starts with the first id and ends with the last, and with several ids it is at least as long as the first id, the separator and the last id together |
| Strings.Split | app.py:143 | `split(',')` yields at least one piece, and no piece contains the separator |
| Strings.JoinSplit | app.py:143 | joining the pieces of a split with the separator gives back the string |
| Strings.SplitJoin | app.py:143 | splitting a join of separator-free pieces gives back the pieces |
| Strings.SplitAfterPiece | app.py:143 | a separator-free piece followed by the separator splits off as the first piece |
| Strings.SplitSinglePiece | app.py:143 | a string without the separator splits into itself alone |
| Strings.DigitsFrom | app.py:92 | `\d+` is greedy: it takes the whole run of digits and stops at a non-digit or at the end |
| Strings.MatchesAt | app.py:138 | definition: the pattern `lit\d{n}` matches at a position: the literal there, followed by `n` digits |
| Strings.FirstMatch | app.py:138 | `re.search` semantics: it returns a match position, and no position between the start and that match matches |
| Strings.FirstMatchNoLater | app.py:138 | whenever some position matches, the search finds a match at or before it |
| Numbers.CeilDiv | app.py:149 | the number of batches covers every item, and dropping one batch would not |
| Numbers.PagesBelowCeil | app.py:69-70 | a page count whose last page starts below the total is at most the ceiling |
| Numbers.CeilDivExact | app.py:149 | any count that covers the total with its last batch non-empty is the ceiling |
| Numbers.OffsetIsProduct | app.py:69 | advancing by `max_results` `k` times reaches `k * max_results` |
| Order.Below | app.py:142 | definition: Python's `<` on `str`, comparing code points left to right, with a proper prefix below the longer string |
| Order.BelowIrreflexive | app.py:142 | no string sorts before itself |
| Order.BelowAsymmetric | app.py:142 | two strings never sort before each other |
| Order.BelowTransitive | app.py:142 | string order is transitive |
| Order.BelowTotal | app.py:142 | any two different strings are ordered one way or the other |
| Order.StrictlySortedDistinct | app.py:142 | a strictly sorted list has no repeated element |
| Order.Insert | app.py:142 | inserting keeps the list strictly sorted and adds exactly the new element |
| Order.InsertBelowHead | app.py:142 | an element below the head can be put in front |
| Order.PrependSmallest | app.py:142 | an element below every member can be put in front |
| Order.SortedSet | app.py:142 | `sorted(set(xs))` is strictly sorted and has exactly the members of `xs` |
| Order.HeadIn | app.py:142 | the head of a non-empty list is one of its members |
| Order.SortedUnique | app.py:142 | two strictly sorted lists with the same members are equal |
| Retry.Run | app.py:22-35 | at most `retries` calls are made, all but the last raised a retryable error, it stops early only at a non-retryable outcome, and it yields a value exactly when the last call returned one |
| Retry.RunReturnsIff | app.py:23-28 | the loop yields a value after `k + 1` calls exactly when attempt `k` is the first, within the bound, that did not raise a retryable error, and it returned |
| Retry.AllFailedYieldsNothing | app.py:82-90 | when every attempt within the bound fails, no value comes back |
| Geo.NextAccession | app.py:46-47 | returns a position at or after the cursor where `GSE\d` starts, or nothing; `NextAccessionNoLater` shows it is the leftmost |
| Geo.NextAccessionNoLater | app.py:46-47 | the scan does not pass over a position where an accession starts |
| Geo.AccessionLength | app.py:46 | the match covers `GSE` and one to ten digits and stays inside the text; `AccessionMatch` states which digits |
| Geo.AccessionAt | app.py:46 | the text matched at a start position has the accession shape: `GSE` and one to ten digits; `AccessionMatch` states that it is the text found there |
| Geo.AccessionMatch | app.py:46-47 | the accession matched at a position is the slice of the text there, of `AccessionLength` characters; every character after `GSE` in it is a digit; and the match stops only at ten digits, at the end of the text or before a non-digit, so a run of at most ten digits is taken whole (`\d{1,10}` is greedy) |
| Geo.AccessionSkip | app.py:47 | `findall` resumes after a match, and no other accession starts inside that match |
| Geo.FindAccessions | app.py:47 | definition: `re.findall` from a cursor, as a set: the match at the next start position, then the scan resumed after that match |
| Geo.FindAccessionsStep | app.py:47 | one step of `findall`: the match found, then the rest of the scan |
| Geo.FindAccessionsNone | app.py:47 | with no further start position, the scan finds nothing |
| Geo.FindAccessionsComplete | app.py:47 | every accession that starts at or after the cursor is found |
| Geo.FindAccessionsSound | app.py:47 | everything found is the accession at some start position |
| Geo.AccessionsIn | app.py:46-48 | the accessions found in a text all have the accession shape |
| Geo.NoPrefixNoAccession | app.py:47 | no accession is found where no `G` occurs |
| Geo.LongRunTruncated | app.py:46-47 | `GSE` followed by more than ten digits yields `GSE` and the first ten digits only; the rest of the run is not reported |
| Geo.AccessionsInExactly | app.py:46-48 | a string is found exactly when some position starts an accession and the match there is that string |
| Geo.FetchAccessionDetails | app.py:38-56 | an empty id list returns nothing at once; otherwise at most three calls are made, retried only on `IncompleteRead`; when attempt `k` is the first within three that is not an `IncompleteRead` and it returned a text, exactly `k + 1` calls are made and the accessions of that text come back; otherwise nothing comes back |
| Geo.SearchGeoAccessions | app.py:22-35 | when some call within three returns a page after nothing but `RuntimeError`s, that page is the result; otherwise the result is `([], 0)`, and then any call that ended the loop raised another exception |
| Geo.Continues | app.py:65-70 | definition: after a search the loop goes on when the page had ids and the advanced offset is still below the reported total |
| Geo.ContinuedThroughAll | app.py:63-71 | the loop went on after each of its first `n` searches |
| Geo.SearchCountBounds | app.py:64-71 | the number of searches is at most `max(1, ceil(bound / max_results))`, where `bound` caps every reported total, and a first total of at most one page means one search |
| Geo.Collected | app.py:59-68 | definition: the union, started empty, of the accessions resolved from each searched page that had ids |
| Geo.Paginate | app.py:58-74 | the loop ends: it goes on after every search but the last and stops at the last; the result is the union over the searched pages; the search count is bounded |
| Geo.FetchAllGeoAccessions | app.py:58-74 | the same, for pages from `search_geo_accessions` and accessions from `fetch_geo_accession_details`, and every accession collected is well-formed |
| Geo.CollectedWellFormed | app.py:67-68 | the union of resolved pages holds only well-formed accessions |
| PubmedLinks.PubmedIdOf | app.py:92-93 | the id is present exactly when `pubmed/` followed by a digit occurs; it is the whole digit run after the first such occurrence |
| PubmedLinks.ExtractPubmedIds | app.py:92-93 | the ids are digit strings, and an id occurs exactly when some href yields it |
| PubmedLinks.ExtractPubmedIdsAppend | app.py:92-93 | the ids keep the order of the links |
| PubmedLinks.LinkedIds | app.py:82-93 | the ids are those of the first page fetched within three attempts, and there are none once all three failed |
| PubmedLinks.FetchPubmedData | app.py:79-94 | the record carries its accession; its field is the `", "`-join of those ids, or `''` when every attempt failed |
| PubmedLinks.FetchPubmedIdsFromGeo | app.py:96-108 | one record per accession, in input order, each built from that accession's own fetches |
| Dates.Lower | app.py:127 | the lowered word has the same length and no capital letter left |
| Dates.LowerIdempotent | app.py:127 | lowering twice is lowering once |
| Dates.MonthNumberIgnoresCase | app.py:127 | a word and its lower-case form name the same month under `%b` |
| Dates.FindMonth | app.py:127 | finds the abbreviation's position in the month list, or reports that it is absent |
| Dates.MonthNumber | app.py:127 | `%b` accepts a word exactly when its lower-case form is a month abbreviation, and gives that month's number |
| Dates.ValidDate | app.py:127 | definition: what `datetime` accepts, years 1 to 9999, months 1 to 12 and days up to the month's length, with Gregorian leap years |
| Dates.DateLe | app.py:172-173 | definition: `a <= b` on dates, by year, then month, then day |
| Dates.DateLeTransitive | app.py:172-173 | date order is transitive |
| Dates.DecimalValue | app.py:127 | the value of an `n`-digit string is below `10^n` |
| Dates.DecimalText | app.py:127 | the zero-padded `w`-digit text of a number is `w` digits long |
| Dates.DecimalValueOfText | app.py:127 | reading the `w`-digit text of a number below `10^w` gives the number back |
| Dates.TextOfDecimalValue | app.py:127 | writing a digit string's value back in as many digits gives the string back, leading zeros included |
| Dates.DayMonthYearAt | app.py:124 | definition: `\d{4} \w{3} \d{1,2}` matches at a position: four digits, a space, three word characters, a space and a digit |
| Dates.DayMonthYearText | app.py:124 | the match is the text at its position, ten characters long, or eleven exactly when a second day digit follows (`\d{1,2}` is greedy) |
| Dates.FirstDayMonthYear | app.py:124 | the leftmost position where `\d{4} \w{3} \d{1,2}` matches |
| Dates.CitationMatch | app.py:124 | there is no match exactly when neither pattern matches anywhere |
| Dates.ParseYearMonthDay | app.py:127 | `strptime("%Y %b %d")` succeeds exactly when the text has the date shape, the middle field is a month abbreviation and the fields form a real date; the result is the date of those year, month and day fields |
| Dates.ParseYear | app.py:130 | `strptime("%Y")` succeeds exactly on four digits naming a year from 1, giving January 1 of the year the digits name |
| Dates.GetPublicationDate | app.py:119-133 | no citation means no date, and any date produced is a real calendar date |
| Dates.FullPatternDecides | app.py:124-132 | when the full-date pattern occurs, the date is its full parse or nothing |
| Dates.YearOnlyFallback | app.py:124-131 | without the full-date pattern, the first four-digit run gives January 1 of that year, or nothing for year 0000 |
| Dates.YearInsideFullDate | app.py:124 | every full-date match starts with a four-digit run |
| Dates.NoYearNoDate | app.py:124-125 | a citation without four consecutive digits has no date |
| Dates.FullDateParsed | app.py:124-127 | when the first full-date match reads year, month abbreviation and day forming a real date, the page is dated by exactly that date |
| Dates.FullDateRejected | app.py:124-132 | when the first full-date match has an unknown month or names no real date, the page has no date |
| Dates.ImpossibleDayExample | app.py:124-132 | `"2021 Feb 30"` gives no date: the full parse fails, and the year fallback on the same text fails too |
| Details.SentinelIsNotNctNumber | app.py:153 | the sentinel `NCT Not Found` never looks like a registry number |
| Details.SearchNct | app.py:135-139 | nothing is found exactly when `NCT\d{8}` occurs nowhere; otherwise the result is the leftmost match, an `NCT` number |
| Details.NctField | app.py:153-157 | the field is the sentinel exactly when there was no page or no match; otherwise it is the match |
| Details.DetailOf | app.py:152-159 | the record has the id, the NCT field and, when a page came back, the page's publication date; without a page there is no number and no date |
| Details.StrippedPieces | app.py:142-143 | definition: the pieces of `field.split(',')`, each stripped, in order |
| Details.Pieces | app.py:142-143 | a string occurs exactly when it is a stripped piece of some non-empty field |
| Details.NormaliseIds | app.py:142-143 | the id list is strictly sorted, and an id is in it exactly when it is a stripped piece of some non-empty field |
| Details.NormaliseIdsUnique | app.py:142-143 | the id list is the only strictly sorted list with those members |
| Details.JoinHeadPrefix | app.py:94 | a prefix on the first element prefixes the join |
| Details.JoinCommaSpace | app.py:94 | joining with `", "` is joining the spaced pieces with `","` |
| Details.SpacedHasNoComma | app.py:94 | spaced digit ids contain no comma |
| Details.StripSpaced | app.py:142 | stripping a spaced id gives back the id |
| Details.FieldPiecesAreIds | app.py:142-143 | splitting a `", "`-joined id list on `,` and stripping each piece gives back the id list |
| Details.JoinEmptyIff | app.py:142 | a join of non-empty ids is empty exactly when there are no ids, so `if entry['Pubmed_ID']` skips exactly the records without ids |
| Details.PieceOfField | app.py:142-143 | every stripped piece of a joined field is one of its ids |
| Details.FieldIds | app.py:142-143 | a joined field is empty exactly when its id list is; otherwise its stripped pieces are the ids |
| Details.JoinedFieldsRoundTrip | app.py:142-143 | for records whose fields are `", "`-joins of id lists, a string is a stripped piece of a non-empty field exactly when it is one of the ids |
| Details.LinkedIdsRoundTrip | app.py:142-143 | the ids `process_pubmed_ids` looks up are exactly the ids linked from some accession's landing page |
| Details.FetchBatch | app.py:150-159 | one batch yields one record per id, in order, each built from that id's own page |
| Details.FetchInBatches | app.py:149-163 | every id gets its record, in order; the progress counts are `min((k+1)*batch_size, total)`, one per batch, strictly increasing and ending at the total |
| Details.ProgressCounts | app.py:149-161 | the batch loop runs `ceil(total / batch_size)` times, and each count is `min((k+1)*batch_size, total)` |
| Details.SortedIds | app.py:142-155 | the results come out in strictly increasing id order, so no id is looked up twice |
| Details.ProcessPubmedIds | app.py:141-167 | one record per normalised id, in sorted order, each from its own page fetch, with the progress counts of the batch loop |
| Details.NoIdsNoWork | app.py:142-149 | when every field is empty, there are no ids and no batches |
| Filter.FilterNct | app.py:169-174 | every kept row passes the mask, and a row is kept exactly when it is an input row and passes the mask |
| Filter.FilterNctIsSubsequence | app.py:174 | `df.loc[mask]` keeps rows in their original order |
| Filter.FilterNctCount | app.py:171-174 | each row is kept as often as it occurs when it passes the mask, and not at all otherwise |
| Filter.FilterNctAppend | app.py:171-174 | filtering splits over concatenation of rows |
| Filter.IsTrialId | app.py:174 | definition: `NCT` and at least one digit, optionally followed by one final newline (`$` matches before it) |
| Filter.TrialIdTrailingNewline | app.py:174 | one final newline does not change whether a value matches `^NCT\d+$` |
| Filter.TrialIdOneNewlineOnly | app.py:174 | two final newlines never match |
| Filter.NctNumberIsTrialId | app.py:138-174 | every number the abstract search produces passes the column test |
| Filter.Keep | app.py:171-174 | definition of the mask: a date is present, `start <= date <= end`, and the NCT column passes the test |
| Filter.SentinelIsNotTrialId | app.py:174 | the sentinel `NCT Not Found` does not match `^NCT\d+$` |
| Filter.UnmatchedRowsDropped | app.py:171-174 | rows with the sentinel or without a date are never kept |
| Filter.EmptyRangeKeepsNothing | app.py:171-173 | a start date after the end date keeps nothing |
| Filter.BoundaryDatesKept | app.py:172-174 | both ends of the range are included |
| Filter.DetailKeptIff | app.py:152-174 | a record built by the PubMed stage is kept exactly when its page came back with an NCT number and a date within the range |
| Filter.FilterFrameAsWritten | app.py:169-174 | filtering the frame built from the records raises exactly when there are no records; otherwise it gives the filtered rows |
| Filter.NoLinkedIdsRaises | app.py:142-174 | when no accession links a PubMed id, the PubMed stage has no records and filtering them raises |
| Filter.FilterNctCorrected | app.py:169-174 | the filter the model uses agrees with the code wherever the code filters, and turns an empty table into an empty table |

## Left out

- The Streamlit UI, progress bars, status text, warnings and error
  messages are not modelled. The progress a batch loop reports is kept as
  a list of counts.
- HTTP requests, `Entrez.esearch`, `Entrez.efetch`, timeouts and
  `time.sleep` are replaced by parameters. These list what successive calls
  return, or what a page holds.
- `Retry.Run`: an attempt list shorter than the retry bound ends the loop
  as if the remaining attempts had failed too.
- The thread pool of `fetch_pubmed_ids_from_geo` is not modelled.
  `executor.map` yields results in input order, so the model is an
  order-preserving map over the accessions.
- BeautifulSoup is not modelled. Its outputs are inputs: the `href` targets
  of a landing page, the rendered text of a PubMed page, and the text of its
  `span.cit` element.
- `fetch_pubmed_html` is a parameter from id to `Option<Page>`. An empty
  body (falsy in Python) and a failed fetch are both `None`, because
  `process_pubmed_ids` treats them alike.
- `\d` and `\w` are modelled on ASCII. Python's versions also accept
  other Unicode digits and letters. `str.strip()` removes exactly the
  characters for which Python's `str.isspace` holds.
- `Dates.ParseYearMonthDay`: `strptime` is modelled only on the shapes the
  two citation patterns can produce. Those are a ten- or eleven-character
  date and a four-digit year.
- `Dates.GetPublicationDate` returns a date, not a `datetime` at midnight.
  Only `.date()` of it is used.
- `Filter.FilterNct` turns an empty record list into an empty table. The
  code raises `KeyError` there; see Findings.
- `Filter.FilterNct`: the coercion by `pd.to_datetime` is not modelled.
  This includes its nanosecond-timestamp range, whose bounds
  (1677-09-21 00:12:43 to 2262-04-11 23:47:16) turn dates on or before
  1677-09-21 and after 2262-04-11 into missing values, so those rows are
  dropped. Every date the model produces is a real calendar date.
- `Filter.FilterNct` is a pure function. The code, at app.py:170, writes the
  coerced `Publication_Date` column back into the caller's `nct_df`, and
  that changed table is what gets saved to sqlite (app.py:210). The
  mutation is not modelled.
- `Geo.FetchAccessionDetails` returns a set of accessions, not
  `list(set)`. The order of that list is arbitrary in Python.
- `Geo.FetchAllGeoAccessions` likewise returns the set.
- `Geo.FetchAllGeoAccessions` and `Geo.Paginate` require a bound on every
  total the search reports. Without it, a search whose reported total
  keeps growing would make the Python loop run forever.
- `Geo.SearchGeoAccessions` does not model a missing `Count` or `IdList`
  key. The page always carries both.
- `PubmedLinks.FetchPubmedData`: exceptions other than request errors
  are not modelled. In the code they escape `fetch_pubmed_data` and end
  the run. `fetch_pubmed_html` catches every exception, so its `None` is
  fully modelled.
- The default `max_results` of 100 and `batch_size` of 50 are parameters.
  `Details.DefaultBatchSize` records the second.
- sqlite, pandas DataFrames, `st.dataframe` and the download buttons are
  not part of this model.

## Findings

| source | as written | input that shows it | evidently intended | confidence | as-written member | corrected member |
|---|---|---|---|---|---|---|
| app.py:170 | `pd.DataFrame(process_pubmed_ids(metadata))` of an empty list has no columns, so `df["Publication_Date"]` raises `KeyError` | a keyword whose accessions link no PubMed id: every `Pubmed_ID` is `''`, no ids, no records | an empty result table filters to an empty table | not executed; high | Filter.FilterFrameAsWritten, Filter.NoLinkedIdsRaises | Filter.FilterNct, Filter.FilterNctCorrected |

=== FILE: dates.dfy ===
/** `get_publication_date`: the publication date read from the text of a
    PubMed page's `span.cit` element. The first of `\d{4} \w{3} \d{1,2}` and
    `\d{4}` that occurs is parsed with `strptime("%Y %b %d")` and, failing
    that, with `strptime("%Y")`. */
module Dates {
  import opened Wrappers
  import opened Strings

  /** A calendar date, as `datetime.date` holds it. */
  datatype Date = Date(year: int, month: int, day: int)

  predicate IsLeapYear(y: int) {
    y % 4 == 0 && (y % 100 != 0 || y % 400 == 0)
  }

  function DaysInMonth(year: int, month: int): int
    requires 1 <= month <= 12
  {
    if month == 2 then (if IsLeapYear(year) then 29 else 28)
    else if month == 4 || month == 6 || month == 9 || month == 11 then 30
    else 31
  }

  /** What `datetime.date` accepts: years 1 to 9999 and real calendar days. */
  predicate ValidDate(d: Date) {
    && 1 <= d.year <= 9999
    && 1 <= d.month <= 12
    && 1 <= d.day <= DaysInMonth(d.year, d.month)
  }

  /** `a <= b` on dates: by year, then month, then day. */
  predicate DateLe(a: Date, b: Date) {
    || a.year < b.year
    || (a.year == b.year && a.month < b.month)
    || (a.year == b.year && a.month == b.month && a.day <= b.day)
  }

  lemma DateLeTransitive(a: Date, b: Date, c: Date)
    requires DateLe(a, b) && DateLe(b, c)
    ensures DateLe(a, c)
  {
  }

  /** The English month abbreviations `%b` accepts, in lower case. */
  const MonthAbbreviations: seq<string> :=
    ["jan", "feb", "mar", "apr", "may", "jun", "jul", "aug", "sep", "oct", "nov", "dec"]

  function LowerAscii(c: char): char {
    if 'A' <= c <= 'Z' then (c as int + 32) as char else c
  }

  function Lower(s: string): (r: string)
    ensures |r| == |s|
    ensures forall k :: 0 <= k < |s| ==> r[k] == LowerAscii(s[k])
    ensures forall k :: 0 <= k < |r| ==> !('A' <= r[k] <= 'Z')
  {
    seq(|s|, k requires 0 <= k < |s| => LowerAscii(s[k]))
  }

  /** Lowering an already lowered word changes nothing. */
  lemma LowerIdempotent(s: string)
    ensures Lower(Lower(s)) == Lower(s)
  {
    var r := Lower(s);
    forall k | 0 <= k < |r|
      ensures LowerAscii(r[k]) == r[k]
    {
      assert !('A' <= r[k] <= 'Z');
    }
  }

  function FindMonth(lw: string, i: nat): (m: Option<int>)
    requires i <= |MonthAbbreviations|
    ensures m.Some? ==> i + 1 <= m.value <= |MonthAbbreviations| && MonthAbbreviations[m.value - 1] == lw
    ensures m.None? ==> forall j :: i <= j < |MonthAbbreviations| ==> MonthAbbreviations[j] != lw
    decreases |MonthAbbreviations| - i
  {
    if i == |MonthAbbreviations| then None
    else if MonthAbbreviations[i] == lw then Some(i + 1)
    else FindMonth(lw, i + 1)
  }

  /** `%b`: the month a three-letter abbreviation names, ignoring case. */
  function MonthNumber(word: string): (m: Option<int>)
    ensures m.Some? <==> Lower(word) in MonthAbbreviations
    ensures m.Some? ==> 1 <= m.value <= 12 && MonthAbbreviations[m.value - 1] == Lower(word)
  {
    FindMonth(Lower(word), 0)
  }

  /** `%b` ignores case: a word and its lower-case form name the same
      month. */
  lemma MonthNumberIgnoresCase(word: string)
    ensures MonthNumber(Lower(word)) == MonthNumber(word)
  {
    LowerIdempotent(word);
  }

  /** The value of a string of decimal digits, as `%Y` and `%d` read it:
      below ten to the power of its length. */
  function DecimalValue(s: string): (v: nat)
    requires AllDigits(s)
    ensures v < Pow10(|s|)
  {
    if |s| == 0 then 0
    else DecimalValue(s[..|s| - 1]) * 10 + (s[|s| - 1] as int - '0' as int)
  }

  function Pow10(n: nat): nat {
    if n == 0 then 1 else 10 * Pow10(n - 1)
  }

  function DigitChar(d: nat): char
    requires d < 10
  {
    ('0' as int + d) as char
  }

  /** The `w`-digit decimal text of `n`, with leading zeros. */
  function DecimalText(n: nat, w: nat): (s: string)
    ensures |s| == w && AllDigits(s)
  {
    if w == 0 then "" else DecimalText(n / 10, w - 1) + [DigitChar(n % 10)]
  }

  /** Reading back the `w`-digit text of a number below `10^w` gives the
      number. */
  lemma {:induction false} DecimalValueOfText(n: nat, w: nat)
    requires n < Pow10(w)
    ensures DecimalValue(DecimalText(n, w)) == n
  {
    if w > 0 {
      var s := DecimalText(n, w);
      assert s[..w - 1] == DecimalText(n / 10, w - 1);
      DecimalValueOfText(n / 10, w - 1);
    }
  }

  /** Writing the value of a digit string back in as many digits gives the
      string: the reading loses nothing, leading zeros included. */
  lemma {:induction false} TextOfDecimalValue(s: string)
    requires AllDigits(s)
    ensures DecimalText(DecimalValue(s), |s|) == s
    decreases |s|
  {
    if |s| > 0 {
      var init := s[..|s| - 1];
      var d := s[|s| - 1] as int - '0' as int;
      TextOfDecimalValue(init);
      var v := DecimalValue(s);
      assert v == DecimalValue(init) * 10 + d;
      assert v / 10 == DecimalValue(init) && v % 10 == d;
      assert s == init + [s[|s| - 1]];
    }
  }

  // ---------------------------------------------------------------------
  // The two citation patterns

  /** `\d{4} \w{3} \d{1,2}` matches at `p`. */
  predicate DayMonthYearAt(s: string, p: int)
  {
    && 0 <= p
    && p + 10 <= |s|
    && (forall k :: p <= k < p + 4 ==> IsDigit(s[k]))
    && s[p + 4] == ' '
    && (forall k :: p + 5 <= k < p + 8 ==> IsWordChar(s[k]))
    && s[p + 8] == ' '
    && IsDigit(s[p + 9])
  }

  /** The text matched at `p`: a second day digit is taken when there is one. */
  function DayMonthYearText(s: string, p: nat): (m: string)
    requires DayMonthYearAt(s, p)
    ensures |m| == 10 || |m| == 11
    ensures p + |m| <= |s| && m == s[p..p + |m|]
    ensures |m| == 11 <==> p + 10 < |s| && IsDigit(s[p + 10])
  {
    if p + 10 < |s| && IsDigit(s[p + 10]) then s[p..p + 11] else s[p..p + 10]
  }

  /** `re.search(r'\d{4} \w{3} \d{1,2}', s)` from `from`: the leftmost
      position where the pattern matches. */
  function FirstDayMonthYear(s: string, from: nat): (r: Option<nat>)
    ensures r.Some? ==> from <= r.value && DayMonthYearAt(s, r.value)
    ensures forall q :: from <= q && (r.None? || q < r.value) ==> !DayMonthYearAt(s, q)
    decreases |s| - from
  {
    if from + 10 > |s| then None
    else if DayMonthYearAt(s, from) then Some(from)
    else FirstDayMonthYear(s, from + 1)
  }

  /** `re.search(r'\d{4} \w{3} \d{1,2}', text) or re.search(r'\d{4}', text)`,
      as the matched text. */
  function CitationMatch(text: string): (m: Option<string>)
    ensures m.None? <==> (forall p :: !DayMonthYearAt(text, p)) && (forall p :: !MatchesAt(text, "", 4, p))
  {
    match FirstDayMonthYear(text, 0)
    case Some(p) => Some(DayMonthYearText(text, p))
    case None =>
      match FirstMatch(text, "", 4, 0)
      case Some(p) => Some(text[p..p + 4])
      case None => None
  }

  // ---------------------------------------------------------------------
  // strptime

  /** `strptime(m, "%Y %b %d")` on the strings the citation patterns
      produce: a four-digit year, a month abbreviation and a one- or
      two-digit day, each separated by one blank, forming a real date. */
  predicate DateShape(m: string) {
    (|m| == 10 || |m| == 11) && AllDigits(m[..4]) && m[4] == ' ' && m[8] == ' ' && AllDigits(m[9..])
  }

  /** The date the three fields of a date-shaped text name, when the middle
      field is a month abbreviation. */
  function FieldsDate(m: string): Date
    requires DateShape(m) && MonthNumber(m[5..8]).Some?
  {
    Date(DecimalValue(m[..4]), MonthNumber(m[5..8]).value, DecimalValue(m[9..]))
  }

  function ParseYearMonthDay(m: string): (r: Option<Date>)
    ensures r.Some? <==> DateShape(m) && MonthNumber(m[5..8]).Some? && ValidDate(FieldsDate(m))
    ensures r.Some? ==> DateShape(m) && MonthNumber(m[5..8]).Some? && r.value == FieldsDate(m)
    ensures r.Some? ==> ValidDate(r.value)
  {
    if DateShape(m) then
      match MonthNumber(m[5..8])
      case None => None
      case Some(month) =>
        var d := Date(DecimalValue(m[..4]), month, DecimalValue(m[9..]));
        if ValidDate(d) then Some(d) else None
    else None
  }

  /** `strptime(m, "%Y")`: exactly four digits naming a year from 1, read as
      January 1 of that year. */
  function ParseYear(m: string): (r: Option<Date>)
    ensures r.Some? <==> |m| == 4 && AllDigits(m) && DecimalValue(m) >= 1
    ensures r.Some? ==> AllDigits(m) && r.value == Date(DecimalValue(m), 1, 1)
    ensures r.Some? ==> ValidDate(r.value)
  {
    if |m| == 4 && AllDigits(m) && DecimalValue(m) >= 1 then
      Some(Date(DecimalValue(m), 1, 1))
    else None
  }

  /** `get_publication_date`, given the text of the `span.cit` element
      (`None` when the page has none). The matched text is parsed as a full
      date and, failing that, as a year. */
  function GetPublicationDate(citation: Option<string>): (r: Option<Date>)
    ensures citation.None? ==> r.None?
    ensures r.Some? ==> ValidDate(r.value)
  {
    match citation
    case None => None
    case Some(text) =>
      match CitationMatch(text)
      case None => None
      case Some(m) =>
        var full := ParseYearMonthDay(m);
        if full.Some? then full else ParseYear(m)
  }

  /** When `\d{4} \w{3} \d{1,2}` occurs, the date is its full parse or
      nothing: the year-only fallback is tried on the same eleven- or
      ten-character text, which is never a bare year. */
  lemma FullPatternDecides(text: string)
    requires exists p :: DayMonthYearAt(text, p)
    ensures var p := FirstDayMonthYear(text, 0).value;
            GetPublicationDate(Some(text)) == ParseYearMonthDay(DayMonthYearText(text, p))
  {
    var p :| DayMonthYearAt(text, p);
    assert FirstDayMonthYear(text, 0).Some?;
  }

  /** Only when `\d{4} \w{3} \d{1,2}` occurs nowhere does the first run of
      four digits give January 1 of that year (and nothing for year 0000). */
  lemma YearOnlyFallback(text: string, p: nat)
    requires forall q :: !DayMonthYearAt(text, q)
    requires FirstMatchAt(text, "", 4, p)
    ensures var y := text[p..p + 4];
            GetPublicationDate(Some(text))
            == (if DecimalValue(y) >= 1 then Some(Date(DecimalValue(y), 1, 1)) else None)
  {
    var r := FirstMatch(text, "", 4, 0);
    assert r.Some?;
    if r.value != p {
      assert false;
    }
    assert AllDigits(text[p..p + 4]);
  }

  /** Every full-date match starts with a four-digit run. */
  lemma YearInsideFullDate(text: string, q: int)
    ensures DayMonthYearAt(text, q) ==> MatchesAt(text, "", 4, q)
  {
  }

  /** A citation with no four-digit run carries no date. */
  lemma NoYearNoDate(text: string)
    requires forall q :: !MatchesAt(text, "", 4, q)
    ensures GetPublicationDate(Some(text)).None?
  {
    forall q
      ensures DayMonthYearAt(text, q) ==> MatchesAt(text, "", 4, q)
    {
      YearInsideFullDate(text, q);
    }
  }

  /** When the first full-date match reads `y w dd` with `w` a month
      abbreviation and the fields forming a real date, the page is dated by
      exactly that date. */
  lemma FullDateParsed(text: string, p: nat, y: string, w: string, dd: string)
    requires FirstDayMonthYear(text, 0) == Some(p)
    requires DayMonthYearText(text, p) == y + " " + w + " " + dd
    requires |y| == 4 && |w| == 3 && AllDigits(y) && AllDigits(dd)
    requires MonthNumber(w).Some?
    requires ValidDate(Date(DecimalValue(y), MonthNumber(w).value, DecimalValue(dd)))
    ensures GetPublicationDate(Some(text)) == Some(Date(DecimalValue(y), MonthNumber(w).value, DecimalValue(dd)))
  {
    var m := DayMonthYearText(text, p);
    FullPatternDecides(text);
    assert m[..4] == y && m[5..8] == w && m[9..] == dd;
    assert m[4] == ' ' && m[8] == ' ';
  }

  /** And when the month is unknown or the fields form no real date, the
      page has no date at all. */
  lemma FullDateRejected(text: string, p: nat, y: string, w: string, dd: string)
    requires FirstDayMonthYear(text, 0) == Some(p)
    requires DayMonthYearText(text, p) == y + " " + w + " " + dd
    requires |y| == 4 && |w| == 3 && AllDigits(y) && AllDigits(dd)
    requires MonthNumber(w).None? || !ValidDate(Date(DecimalValue(y), MonthNumber(w).value, DecimalValue(dd)))
    ensures GetPublicationDate(Some(text)).None?
  {
    var m := DayMonthYearText(text, p);
    FullPatternDecides(text);
    assert m[..4] == y && m[5..8] == w && m[9..] == dd;
  }

  /** "2021 Feb 30" matches the full pattern but is no date, and the year-only
      fallback does not rescue it. */
  lemma ImpossibleDayExample()
    ensures GetPublicationDate(Some("2021 Feb 30")) == None
  {
    var m := "2021 Feb 30";
    assert DayMonthYearAt(m, 0);
    assert FirstDayMonthYear(m, 0) == Some(0);
    assert DayMonthYearText(m, 0) == "2021" + " " + "Feb" + " " + "30";
    assert Lower("Feb") == "feb";
    assert MonthNumber("Feb") == Some(2);
    assert "30"[..1] == "3";
    assert DecimalValue("30") == 30;
    FullDateRejected(m, 0, "2021", "Feb", "30");
  }
}

=== FILE: details.dfy ===
/** The PubMed stage (`process_pubmed_ids`): the ids gathered from the GEO
    records are normalised into a sorted list of distinct ids, each id's
    PubMed page is fetched once, in that order and in batches, and its NCT
    number and publication date are recorded. */
module Details {
  import opened Wrappers
  import opened Strings
  import opened Numbers
  import opened Order
  import opened Dates
  import opened PubmedLinks

  /** What the parser sees of a fetched PubMed page: its rendered text
      (`soup.get_text(" ", strip=True)`) and the text of its `span.cit`
      element, if it has one. */
  datatype Page = Page(text: string, citation: Option<string>)

  /** One row of `nct_data`. */
  datatype DetailRecord = DetailRecord(pubmedId: string, nct: string, date: Option<Date>)

  const NctNotFound: string := "NCT Not Found"
  const NctPrefix: string := "NCT"
  const NctDigits: nat := 8
  const DefaultBatchSize: nat := 50

  /** A trial registry number as the abstract search finds it: `NCT` and
      eight digits. */
  predicate IsNctNumber(s: string) {
    |s| == |NctPrefix| + NctDigits && s[..3] == NctPrefix && AllDigits(s[3..])
  }

  lemma SentinelIsNotNctNumber()
    ensures !IsNctNumber(NctNotFound)
  {
    assert NctNotFound[3] == ' ';
  }

  // ---------------------------------------------------------------------
  // search_nct_in_abstract

  /** `re.search(r'NCT\d{8}', text)`: the leftmost `NCT` followed by eight
      digits, as text. */
  function SearchNct(text: string): (r: Option<string>)
    ensures r.None? <==> forall p :: !MatchesAt(text, NctPrefix, NctDigits, p)
    ensures r.Some? ==> exists p :: FirstMatchAt(text, NctPrefix, NctDigits, p) && r.value == text[p..p + |NctPrefix| + NctDigits]
    ensures r.Some? ==> IsNctNumber(r.value)
  {
    match FirstMatch(text, NctPrefix, NctDigits, 0)
    case None => None
    case Some(p) =>
      assert FirstMatchAt(text, NctPrefix, NctDigits, p);
      var n := text[p..p + |NctPrefix| + NctDigits];
      assert n[..|NctPrefix|] == text[p..p + |NctPrefix|];
      assert forall k :: |NctPrefix| <= k < |NctPrefix| + NctDigits ==> n[k] == text[p + k];
      Some(n)
  }

  /** The `NCT Number` field: the number found in the page's text, or the
      sentinel when the page could not be fetched or has none. A fetch that
      failed and one that returned an empty body are both `None` here, since
      the source treats them alike. */
  function NctField(page: Option<Page>): (nct: string)
    ensures nct == NctNotFound <==> page.None? || SearchNct(page.value.text).None?
    ensures nct != NctNotFound ==> IsNctNumber(nct) && nct == SearchNct(page.value.text).value
  {
    match page
    case None => NctNotFound
    case Some(pg) =>
      match SearchNct(pg.text)
      case None => NctNotFound
      case Some(n) =>
        SentinelIsNotNctNumber();
        n
  }

  /** The record built for one id from what its page fetch returned. */
  function DetailOf(id: string, page: Option<Page>): (r: DetailRecord)
    ensures r.pubmedId == id
    ensures r.nct == NctField(page)
    ensures page.None? ==> r.nct == NctNotFound && r.date.None?
    ensures page.Some? ==> r.date == GetPublicationDate(page.value.citation)
    ensures r.date.Some? ==> ValidDate(r.date.value)
  {
    DetailRecord(id, NctField(page), if page.None? then None else GetPublicationDate(page.value.citation))
  }

  // ---------------------------------------------------------------------
  // Normalising the ids

  /** `[pid.strip() for pid in field.split(',')]`. */
  function StrippedPieces(field: string): seq<string>
  {
    var parts := Split(field, ',');
    seq(|parts|, j requires 0 <= j < |parts| => Strip(parts[j]))
  }

  /** `x` is a stripped piece of some non-empty `Pubmed_ID` field. */
  ghost predicate InSomeField(metadata: seq<LinkRecord>, x: string) {
    exists e :: e in metadata && e.pubmedIds != "" && x in StrippedPieces(e.pubmedIds)
  }

  /** Every stripped piece of every non-empty `Pubmed_ID` field, in record
      order; empty fields are skipped. */
  function Pieces(metadata: seq<LinkRecord>): (ps: seq<string>)
    ensures forall x :: x in ps <==> InSomeField(metadata, x)
  {
    if |metadata| == 0 then []
    else
      var head := if metadata[0].pubmedIds != "" then StrippedPieces(metadata[0].pubmedIds) else [];
      var rest := Pieces(metadata[1..]);
      assert forall e :: e in metadata <==> e == metadata[0] || e in metadata[1..];
      head + rest
  }

  /** `sorted(set(pid.strip() for entry in metadata if entry['Pubmed_ID']
      for pid in entry['Pubmed_ID'].split(',')))`. */
  function NormaliseIds(metadata: seq<LinkRecord>): (ids: seq<string>)
    ensures StrictlySorted(ids)
    ensures forall x :: x in ids <==> InSomeField(metadata, x)
  {
    SortedSet(Pieces(metadata))
  }

  /** The id list depends only on the set of pieces: any strictly sorted
      list with exactly those members is the normalised list. */
  lemma NormaliseIdsUnique(metadata: seq<LinkRecord>, ids: seq<string>)
    requires StrictlySorted(ids)
    requires forall x :: x in ids <==> InSomeField(metadata, x)
    ensures NormaliseIds(metadata) == ids
  {
    SortedUnique(NormaliseIds(metadata), ids);
  }

  // ---------------------------------------------------------------------
  // The joined field splits back into the ids

  /** The pieces `field.split(',')` yields for a field joined with ", ":
      every id after the first keeps the blank that followed the comma. */
  function Spaced(ids: seq<string>): seq<string>
  {
    seq(|ids|, k requires 0 <= k < |ids| => if k == 0 then ids[0] else " " + ids[k])
  }

  lemma JoinHeadPrefix(pre: string, h: string, xs: seq<string>, sep: string)
    ensures Join([pre + h] + xs, sep) == pre + Join([h] + xs, sep)
  {
    if |xs| > 0 {
      assert ([pre + h] + xs)[1..] == xs;
      assert ([h] + xs)[1..] == xs;
    }
  }

  lemma {:induction false} JoinCommaSpace(ids: seq<string>)
    requires |ids| >= 1
    ensures Join(ids, Separator) == Join(Spaced(ids), ",")
    decreases |ids|
  {
    if |ids| > 1 {
      var r := ids[1..];
      JoinCommaSpace(r);
      var t := Spaced(ids)[1..];
      assert t == [" " + r[0]] + Spaced(r)[1..];
      assert Spaced(r) == [r[0]] + Spaced(r)[1..];
      JoinHeadPrefix(" ", r[0], Spaced(r)[1..], ",");
      assert Join(t, ",") == " " + Join(Spaced(r), ",");
      assert Join(Spaced(ids), ",") == ids[0] + "," + (" " + Join(r, Separator));
      assert Join(ids, Separator) == ids[0] + Separator + Join(r, Separator);
    }
  }

  lemma SpacedHasNoComma(ids: seq<string>)
    requires forall i :: 0 <= i < |ids| ==> AllDigits(ids[i])
    ensures forall k :: 0 <= k < |ids| ==> ',' !in Spaced(ids)[k]
  {
    var ws := Spaced(ids);
    forall k | 0 <= k < |ws|
      ensures ',' !in ws[k]
    {
      assert k == 0 || ws[k] == " " + ids[k];
    }
  }

  lemma StripSpaced(ids: seq<string>, k: nat)
    requires k < |ids|
    requires |ids[k]| >= 1 && AllDigits(ids[k])
    ensures Strip(Spaced(ids)[k]) == ids[k]
  {
    assert NoSpace(ids[k]);
    if k == 0 {
      StripNoSpace(ids[k]);
    } else {
      StripBlankWord(ids[k]);
    }
  }

  /** Splitting a non-empty ", "-joined list of ids on ',' and stripping each
      piece gives the ids back. */
  lemma FieldPiecesAreIds(ids: seq<string>)
    requires |ids| >= 1
    requires forall i :: 0 <= i < |ids| ==> |ids[i]| >= 1 && AllDigits(ids[i])
    ensures StrippedPieces(Join(ids, Separator)) == ids
  {
    JoinCommaSpace(ids);
    SpacedHasNoComma(ids);
    SplitJoin(Spaced(ids), ',');
    var ps := StrippedPieces(Join(ids, Separator));
    assert |ps| == |ids|;
    forall k | 0 <= k < |ids|
      ensures ps[k] == ids[k]
    {
      StripSpaced(ids, k);
    }
  }

  lemma JoinEmptyIff(ids: seq<string>)
    requires forall i :: 0 <= i < |ids| ==> |ids[i]| >= 1
    ensures Join(ids, Separator) == "" <==> |ids| == 0
  {
    if |ids| > 1 {
      assert |Join(ids, Separator)| >= |ids[0]|;
    }
  }

  /** The PubMed ids looked up are exactly those linked from some accession's
      landing page: the ", "-join and the comma split with strip undo each
      other, and accessions with no ids contribute nothing. */
  lemma LinkedIdsRoundTrip(accessions: seq<string>, net: string -> seq<PageFetch>, x: string)
    ensures x in NormaliseIds(FetchPubmedIdsFromGeo(accessions, net))
            <==> exists i :: 0 <= i < |accessions| && x in LinkedIds(net(accessions[i]))
  {
    var idsOf := seq(|accessions|, i requires 0 <= i < |accessions| => LinkedIds(net(accessions[i])));
    JoinedFieldsRoundTrip(FetchPubmedIdsFromGeo(accessions, net), idsOf, x);
  }

  /** The same for any records whose fields are ", "-joins of id lists. */
  lemma JoinedFieldsRoundTrip(metadata: seq<LinkRecord>, idsOf: seq<seq<string>>, x: string)
    requires |metadata| == |idsOf|
    requires forall i :: 0 <= i < |idsOf| ==> metadata[i].pubmedIds == Join(idsOf[i], Separator)
    requires forall i, j :: 0 <= i < |idsOf| && 0 <= j < |idsOf[i]| ==> |idsOf[i][j]| >= 1 && AllDigits(idsOf[i][j])
    ensures InSomeField(metadata, x) <==> exists i :: 0 <= i < |idsOf| && x in idsOf[i]
  {
    if InSomeField(metadata, x) {
      var e :| e in metadata && e.pubmedIds != "" && x in StrippedPieces(e.pubmedIds);
      var i :| 0 <= i < |metadata| && metadata[i] == e;
      PieceOfField(idsOf[i], x);
    }
    if exists i :: 0 <= i < |idsOf| && x in idsOf[i] {
      var i :| 0 <= i < |idsOf| && x in idsOf[i];
      FieldIds(idsOf[i]);
      assert metadata[i] in metadata;
    }
  }

  lemma PieceOfField(ids: seq<string>, x: string)
    requires forall i :: 0 <= i < |ids| ==> |ids[i]| >= 1 && AllDigits(ids[i])
    requires Join(ids, Separator) != "" && x in StrippedPieces(Join(ids, Separator))
    ensures x in ids
  {
    FieldIds(ids);
  }

  /** The field built from a list of ids is empty exactly when the list is,
      and otherwise its stripped pieces are the ids. */
  lemma FieldIds(ids: seq<string>)
    requires forall i :: 0 <= i < |ids| ==> |ids[i]| >= 1 && AllDigits(ids[i])
    ensures Join(ids, Separator) == "" <==> |ids| == 0
    ensures |ids| > 0 ==> StrippedPieces(Join(ids, Separator)) == ids
  {
    JoinEmptyIff(ids);
    if |ids| > 0 {
      FieldPiecesAreIds(ids);
    }
  }

  // ---------------------------------------------------------------------
  // process_pubmed_ids

  /** One batch: the records of `ids[lo..hi]`, fetched in order. */
  method FetchBatch(ids: seq<string>, net: string -> Option<Page>, lo: nat, hi: nat)
    returns (batch: seq<DetailRecord>)
    requires lo <= hi <= |ids|
    ensures |batch| == hi - lo
    ensures forall m :: 0 <= m < |batch| ==> batch[m] == DetailOf(ids[lo + m], net(ids[lo + m]))
  {
    batch := [];
    var j := lo;
    while j < hi
      invariant lo <= j <= hi
      invariant |batch| == j - lo
      invariant forall m :: 0 <= m < |batch| ==> batch[m] == DetailOf(ids[lo + m], net(ids[lo + m]))
    {
      batch := batch + [DetailOf(ids[j], net(ids[j]))];
      j := j + 1;
    }
  }

  /** `process_pubmed_ids(metadata, batch_size)`. `net(id)` is what fetching
      id's page returns. Besides the records, the method returns the count
      the status line reports after each batch. */
  method ProcessPubmedIds(metadata: seq<LinkRecord>, net: string -> Option<Page>, batchSize: nat)
    returns (results: seq<DetailRecord>, progress: seq<nat>)
    requires batchSize > 0
    ensures var ids := NormaliseIds(metadata);
            && |results| == |ids|
            && forall i :: 0 <= i < |ids| ==> results[i] == DetailOf(ids[i], net(ids[i]))
    ensures forall i, j :: 0 <= i < j < |results| ==> Below(results[i].pubmedId, results[j].pubmedId)
    ensures |progress| == CeilDiv(|NormaliseIds(metadata)|, batchSize)
    ensures forall k :: 0 <= k < |progress| ==> progress[k] == Min((k + 1) * batchSize, |NormaliseIds(metadata)|)
    ensures forall k, l :: 0 <= k < l < |progress| ==> progress[k] < progress[l]
    ensures |progress| > 0 ==> progress[|progress| - 1] == |NormaliseIds(metadata)|
  {
    var ids := NormaliseIds(metadata);
    results, progress := FetchInBatches(ids, net, batchSize);
    SortedIds(ids, results);
  }

  /** The batch loop over an id list: every id's record, in list order, and
      the running count after each batch. */
  method FetchInBatches(ids: seq<string>, net: string -> Option<Page>, batchSize: nat)
    returns (results: seq<DetailRecord>, progress: seq<nat>)
    requires batchSize > 0
    ensures |results| == |ids|
    ensures forall i :: 0 <= i < |ids| ==> results[i] == DetailOf(ids[i], net(ids[i]))
    ensures |progress| == CeilDiv(|ids|, batchSize)
    ensures forall k :: 0 <= k < |progress| ==> progress[k] == Min((k + 1) * batchSize, |ids|)
    ensures forall k, l :: 0 <= k < l < |progress| ==> progress[k] < progress[l]
    ensures |progress| > 0 ==> progress[|progress| - 1] == |ids|
  {
    var total := |ids|;
    results := [];
    progress := [];
    var i := 0;
    while i < total
      invariant i == Offset(|progress|, batchSize)
      invariant |results| == Min(i, total)
      invariant forall j :: 0 <= j < |results| ==> results[j] == DetailOf(ids[j], net(ids[j]))
      invariant forall k :: 0 <= k < |progress| ==> progress[k] == Min(Offset(k + 1, batchSize), total)
      invariant forall k, l :: 0 <= k < l < |progress| ==> progress[k] < progress[l]
      invariant |progress| > 0 ==> progress[|progress| - 1] == Min(i, total)
      invariant |progress| == 0 || Offset(|progress| - 1, batchSize) < total
      decreases total - i
    {
      var stop := Min(i + batchSize, total);
      var batch := FetchBatch(ids, net, i, stop);
      var before, counts := results, progress;
      results := before + batch;
      forall j | 0 <= j < |results|
        ensures results[j] == DetailOf(ids[j], net(ids[j]))
      {
        if j < |before| {
          assert results[j] == before[j];
        } else {
          assert results[j] == batch[j - i];
        }
      }
      progress := counts + [stop];
      assert Offset(|counts| + 1, batchSize) == i + batchSize;
      forall k | 0 <= k < |progress|
        ensures progress[k] == Min(Offset(k + 1, batchSize), total)
      {
        if k < |counts| {
          assert progress[k] == counts[k];
        }
      }
      forall k, l | 0 <= k < l < |progress|
        ensures progress[k] < progress[l]
      {
        if l < |counts| {
          assert progress[k] == counts[k] && progress[l] == counts[l];
        } else if k < |counts| - 1 {
          assert counts[k] < counts[|counts| - 1] == i;
        } else {
          assert progress[k] == counts[k] == i;
        }
      }
      i := i + batchSize;
    }
    ProgressCounts(progress, batchSize, total);
  }

  /** The reported counts, stated with products instead of offsets. */
  lemma ProgressCounts(progress: seq<nat>, batchSize: nat, total: nat)
    requires batchSize > 0
    requires total <= Offset(|progress|, batchSize)
    requires |progress| == 0 || Offset(|progress| - 1, batchSize) < total
    requires forall k :: 0 <= k < |progress| ==> progress[k] == Min(Offset(k + 1, batchSize), total)
    ensures |progress| == CeilDiv(total, batchSize)
    ensures forall k :: 0 <= k < |progress| ==> progress[k] == Min((k + 1) * batchSize, total)
  {
    OffsetIsProduct(|progress|, batchSize);
    if |progress| > 0 {
      OffsetIsProduct(|progress| - 1, batchSize);
    }
    CeilDivExact(|progress|, batchSize, total);
    forall k | 0 <= k < |progress|
      ensures progress[k] == Min((k + 1) * batchSize, total)
    {
      OffsetIsProduct(k + 1, batchSize);
    }
  }

  lemma SortedIds(ids: seq<string>, results: seq<DetailRecord>)
    requires StrictlySorted(ids)
    requires |results| == |ids|
    requires forall j :: 0 <= j < |ids| ==> results[j].pubmedId == ids[j]
    ensures forall i, j :: 0 <= i < j < |results| ==> Below(results[i].pubmedId, results[j].pubmedId)
  {
  }

  /** No GEO record with a PubMed id: nothing is fetched and nothing reported. */
  lemma NoIdsNoWork(metadata: seq<LinkRecord>)
    requires forall i :: 0 <= i < |metadata| ==> metadata[i].pubmedIds == ""
    ensures NormaliseIds(metadata) == []
    ensures CeilDiv(|NormaliseIds(metadata)|, DefaultBatchSize) == 0
  {
    if |NormaliseIds(metadata)| > 0 {
      HeadIn(NormaliseIds(metadata));
      assert false;
    }
  }
}

=== FILE: filter.dfy ===
/** `filter_nct`: the rows of `nct_data` that have a publication date within
    the chosen range, both ends included, and a trial registry number in the
    `NCT Number` column. */
module Filter {
  import opened Wrappers
  import opened Strings
  import opened Dates
  import opened PubmedLinks
  import opened Details

  /** `re.match(r'^NCT\d+$', s)`: `NCT` and at least one digit, up to the end
      of the string or up to a single newline that ends it. */
  predicate IsTrialId(s: string) {
    var body := if |s| > 0 && s[|s| - 1] == '\n' then s[..|s| - 1] else s;
    |body| >= 4 && body[..3] == NctPrefix && AllDigits(body[3..])
  }

  /** `$` also matches just before a newline that ends the string, so one
      such newline is accepted after the digits. */
  lemma TrialIdTrailingNewline(s: string)
    requires |s| == 0 || s[|s| - 1] != '\n'
    ensures IsTrialId(s + "\n") <==> IsTrialId(s)
  {
    assert (s + "\n")[..|s|] == s;
  }

  /** A second newline is not accepted. */
  lemma TrialIdOneNewlineOnly(s: string)
    ensures !IsTrialId(s + "\n\n")
  {
    var t := s + "\n\n";
    var body := t[..|t| - 1];
    assert body[|body| - 1] == '\n';
    if |body| >= 4 {
      assert body[3..][|body| - 4] == '\n';
    }
  }

  /** Every number the abstract search can produce passes the column test,
      with or without a final newline. */
  lemma NctNumberIsTrialId(s: string)
    requires IsNctNumber(s)
    ensures IsTrialId(s) && IsTrialId(s + "\n")
  {
    assert s[|s| - 1] != '\n';
    TrialIdTrailingNewline(s);
  }

  /** The row mask: a date is present, `start <= date <= end`, and the NCT
      column holds a trial id. */
  predicate Keep(r: DetailRecord, start: Date, end: Date) {
    && r.date.Some?
    && DateLe(start, r.date.value)
    && DateLe(r.date.value, end)
    && IsTrialId(r.nct)
  }

  /** `df.loc[mask]`: the rows the mask keeps, in their original order. */
  function FilterNct(records: seq<DetailRecord>, start: Date, end: Date): (kept: seq<DetailRecord>)
    ensures |kept| <= |records|
    ensures forall i :: 0 <= i < |kept| ==> Keep(kept[i], start, end)
    ensures forall r :: r in kept <==> r in records && Keep(r, start, end)
  {
    if |records| == 0 then []
    else
      var rest := FilterNct(records[1..], start, end);
      assert forall r :: r in records[1..] ==> r in records;
      assert forall r :: r in records ==> r == records[0] || r in records[1..];
      if Keep(records[0], start, end) then [records[0]] + rest else rest
  }

  /** `xs` is obtained from `ys` by deleting elements. */
  predicate SubsequenceOf(xs: seq<DetailRecord>, ys: seq<DetailRecord>)
    decreases |ys|
  {
    if |xs| == 0 then true
    else if |ys| == 0 then false
    else if xs[0] == ys[0] then SubsequenceOf(xs[1..], ys[1..])
    else SubsequenceOf(xs, ys[1..])
  }

  /** Filtering keeps the rows in their original order. */
  lemma {:induction false} FilterNctIsSubsequence(records: seq<DetailRecord>, start: Date, end: Date)
    ensures SubsequenceOf(FilterNct(records, start, end), records)
    decreases |records|
  {
    if |records| > 0 {
      var kept := FilterNct(records, start, end);
      FilterNctIsSubsequence(records[1..], start, end);
      if Keep(records[0], start, end) {
        assert kept[1..] == FilterNct(records[1..], start, end);
      }
    }
  }

  /** Each row is kept as often as it occurs, when the mask holds for it, and
      dropped otherwise. */
  lemma {:induction false} FilterNctCount(records: seq<DetailRecord>, start: Date, end: Date, r: DetailRecord)
    ensures multiset(FilterNct(records, start, end))[r]
            == if Keep(r, start, end) then multiset(records)[r] else 0
    decreases |records|
  {
    if |records| > 0 {
      FilterNctCount(records[1..], start, end, r);
      var rest := FilterNct(records[1..], start, end);
      assert records == [records[0]] + records[1..];
      assert multiset(records) == multiset{records[0]} + multiset(records[1..]);
      if Keep(records[0], start, end) {
        assert multiset(FilterNct(records, start, end)) == multiset{records[0]} + multiset(rest);
      } else {
        assert FilterNct(records, start, end) == rest;
      }
    }
  }

  /** Filtering splits over concatenation of the rows. */
  lemma {:induction false} FilterNctAppend(a: seq<DetailRecord>, b: seq<DetailRecord>, start: Date, end: Date)
    ensures FilterNct(a + b, start, end) == FilterNct(a, start, end) + FilterNct(b, start, end)
    decreases |a|
  {
    if |a| == 0 {
      assert a + b == b;
    } else {
      assert (a + b)[0] == a[0];
      assert (a + b)[1..] == a[1..] + b;
      FilterNctAppend(a[1..], b, start, end);
    }
  }

  lemma SentinelIsNotTrialId()
    ensures !IsTrialId(NctNotFound)
  {
    assert NctNotFound[3] == ' ';
    assert NctNotFound[3..][0] == ' ';
  }

  /** Rows without an NCT number, or without a date, never pass. */
  lemma UnmatchedRowsDropped(records: seq<DetailRecord>, start: Date, end: Date, r: DetailRecord)
    requires r.nct == NctNotFound || r.date.None?
    ensures r !in FilterNct(records, start, end)
  {
    SentinelIsNotTrialId();
  }

  /** An empty range (start after end) keeps nothing. */
  lemma EmptyRangeKeepsNothing(records: seq<DetailRecord>, start: Date, end: Date)
    requires !DateLe(start, end)
    ensures FilterNct(records, start, end) == []
  {
    var kept := FilterNct(records, start, end);
    if |kept| > 0 {
      DateLeTransitive(start, kept[0].date.value, end);
      assert false;
    }
  }

  /** Both ends of the range are included. */
  lemma BoundaryDatesKept(r: DetailRecord, start: Date, end: Date)
    requires DateLe(start, end)
    requires r.date == Some(start) || r.date == Some(end)
    requires IsNctNumber(r.nct)
    ensures Keep(r, start, end)
  {
    assert r.nct[|r.nct| - 1] != '\n';
  }

  /** A record built by the PubMed stage passes exactly when its page was
      fetched, an NCT number was found in its text, and its citation dates
      it within the range. */
  lemma DetailKeptIff(id: string, page: Option<Page>, start: Date, end: Date)
    ensures var r := DetailOf(id, page);
            Keep(r, start, end) <==>
              && page.Some?
              && SearchNct(page.value.text).Some?
              && GetPublicationDate(page.value.citation).Some?
              && DateLe(start, GetPublicationDate(page.value.citation).value)
              && DateLe(GetPublicationDate(page.value.citation).value, end)
  {
    var r := DetailOf(id, page);
    SentinelIsNotTrialId();
    if r.nct != NctNotFound {
      assert IsNctNumber(r.nct);
      assert r.nct[|r.nct| - 1] != '\n';
    }
  }

  // ---------------------------------------------------------------------
  // An empty result table

  /** What `filter_nct(pd.DataFrame(records), start, end)` does as written:
      filters the rows, or raises `KeyError`. */
  datatype FilterOutcome = Filtered(rows: seq<DetailRecord>) | MissingColumn

  /** `filter_nct` applied to the frame built from the records. A frame
      built from an empty list has no columns, so reading
      `df["Publication_Date"]` raises instead of filtering. */
  function FilterFrameAsWritten(records: seq<DetailRecord>, start: Date, end: Date): (o: FilterOutcome)
    ensures o.MissingColumn? <==> |records| == 0
    ensures o.Filtered? ==> o.rows == FilterNct(records, start, end)
  {
    if |records| == 0 then MissingColumn else Filtered(FilterNct(records, start, end))
  }

  /** A search whose accessions link no PubMed id ends in that error: the
      PubMed stage returns no records, and filtering them raises. */
  lemma NoLinkedIdsRaises(metadata: seq<LinkRecord>, results: seq<DetailRecord>, start: Date, end: Date)
    requires forall i :: 0 <= i < |metadata| ==> metadata[i].pubmedIds == ""
    requires |results| == |NormaliseIds(metadata)|
    ensures FilterFrameAsWritten(results, start, end) == MissingColumn
  {
    NoIdsNoWork(metadata);
  }

  /** The filter the rest of the model uses never raises: it agrees with
      the code wherever the code filters, and an empty table filters to an
      empty table. */
  lemma FilterNctCorrected(records: seq<DetailRecord>, start: Date, end: Date)
    ensures |records| == 0 ==> FilterNct(records, start, end) == []
    ensures |records| > 0 ==> FilterFrameAsWritten(records, start, end) == Filtered(FilterNct(records, start, end))
  {
  }
}

=== FILE: geo.dfy ===
/** The GEO stage: the retried keyword search (`search_geo_accessions`),
    accession extraction from the bulk record text
    (`fetch_geo_accession_details`) and the pagination loop that drives both
    (`fetch_all_geo_accessions`).

    Each remote call is a list of attempt outcomes: for `Entrez.esearch` a
    `RuntimeError` is retryable, for `Entrez.efetch` an `IncompleteRead` is,
    and any other exception is fatal. */
module Geo {
  import opened Wrappers
  import opened Strings
  import opened Numbers
  import opened Retry

  /** One page of `Entrez.esearch` results: the `IdList` and `int(Count)`. */
  datatype SearchPage = SearchPage(ids: seq<string>, count: int)

  /** The accessions `fetch_geo_accession_details` collected and the number
      of `efetch` calls it made. */
  datatype Resolved = Resolved(accessions: set<string>, calls: nat)

  const AccessionPrefix: string := "GSE"
  const MaxAccessionDigits: nat := 10

  /** The shape `GSE` followed by one to ten digits. */
  predicate IsAccession(a: string) {
    && 4 <= |a| <= |AccessionPrefix| + MaxAccessionDigits
    && a[..3] == AccessionPrefix
    && forall k :: 3 <= k < |a| ==> IsDigit(a[k])
  }

  /** `GSE` followed by a digit starts at position `p` of `s`. */
  predicate AccessionStartsAt(s: string, p: int) {
    && 0 <= p
    && p + 4 <= |s|
    && s[p] == 'G' && s[p + 1] == 'S' && s[p + 2] == 'E'
    && IsDigit(s[p + 3])
  }

  /** `re.search` for `GSE\d` from position `from`: the leftmost position at
      or after `from` where an accession starts. */
  function NextAccession(s: string, from: nat): (r: Option<nat>)
    ensures r.Some? ==> from <= r.value && AccessionStartsAt(s, r.value)
    decreases |s| - from
  {
    if from + 4 > |s| then None
    else if AccessionStartsAt(s, from) then Some(from)
    else NextAccession(s, from + 1)
  }

  /** The scan finds a match no later than any position where one starts. */
  lemma {:induction false} NextAccessionNoLater(s: string, from: nat, p: nat)
    requires from <= p && AccessionStartsAt(s, p)
    ensures NextAccession(s, from).Some? && NextAccession(s, from).value <= p
    decreases p - from
  {
    if from < p && !AccessionStartsAt(s, from) {
      NextAccessionNoLater(s, from + 1, p);
    }
  }

  /** How much of `s` the pattern `GSE\d{1,10}` consumes at `p`: the prefix
      and the digit run there, cut to ten digits. */
  function AccessionLength(s: string, p: nat): (n: nat)
    requires AccessionStartsAt(s, p)
    ensures 4 <= n <= |AccessionPrefix| + MaxAccessionDigits
    ensures p + n <= |s|
  {
    3 + Min(DigitsFrom(s, p + 3), MaxAccessionDigits)
  }

  /** The text `GSE\d{1,10}` matches at `p`. */
  function AccessionAt(s: string, p: nat): (a: string)
    requires AccessionStartsAt(s, p)
    ensures IsAccession(a)
  {
    var a := s[p..p + AccessionLength(s, p)];
    assert a[..3] == s[p..p + 3];
    assert forall k :: 3 <= k < |a| ==> a[k] == s[p + k];
    a
  }

  /** The match at `p` is the text found there: `GSE` and the digit run
      after it, taken whole when it has at most ten digits and cut to ten
      otherwise (`\d{1,10}` is greedy). */
  lemma AccessionMatch(s: string, p: nat)
    requires AccessionStartsAt(s, p)
    ensures p + |AccessionAt(s, p)| <= |s| && AccessionAt(s, p) == s[p..p + |AccessionAt(s, p)|]
    ensures |AccessionAt(s, p)| == AccessionLength(s, p)
    ensures forall k :: p + |AccessionPrefix| <= k < p + AccessionLength(s, p) ==> IsDigit(s[k])
    ensures || AccessionLength(s, p) == |AccessionPrefix| + MaxAccessionDigits
            || p + AccessionLength(s, p) == |s|
            || !IsDigit(s[p + AccessionLength(s, p)])
  {
  }

  /** The accessions `re.findall(r"GSE\d{1,10}", s)` reports from position
      `from`, as the set they are added to: the scan resumes after each
      match. */
  function FindAccessions(s: string, from: nat): set<string>
    decreases |s| - from
  {
    match NextAccession(s, from)
    case None => {}
    case Some(p) =>
      {AccessionAt(s, p)} + FindAccessions(s, p + AccessionLength(s, p))
  }

  /** The set of accessions a record text yields. */
  function AccessionsIn(text: string): (r: set<string>)
    ensures forall a :: a in r ==> IsAccession(a)
  {
    var r := FindAccessions(text, 0);
    assert forall a :: a in r ==> IsAccession(a) by {
      forall a | a in r
        ensures IsAccession(a)
      {
        var p := FindAccessionsSound(text, 0, a);
      }
    }
    r
  }

  /** A match never starts inside the previous one: `S`, `E` and digits are
      not `G`. */
  lemma AccessionSkip(s: string, q: nat, p: nat)
    requires AccessionStartsAt(s, q) && AccessionStartsAt(s, p) && q < p
    ensures q + AccessionLength(s, q) <= p
  {
    forall k | q + 3 <= k < q + AccessionLength(s, q)
      ensures IsDigit(s[k])
    {
    }
  }

  /** One step of the scan: the first match, then the scan resumed after it. */
  lemma FindAccessionsStep(s: string, from: nat, q: nat, a: string)
    requires NextAccession(s, from) == Some(q)
    ensures AccessionStartsAt(s, q)
    ensures a in FindAccessions(s, from)
            <==> a == AccessionAt(s, q) || a in FindAccessions(s, q + AccessionLength(s, q))
  {
  }

  lemma FindAccessionsNone(s: string, from: nat)
    requires NextAccession(s, from).None?
    ensures FindAccessions(s, from) == {}
  {
  }

  lemma {:induction false} FindAccessionsComplete(s: string, from: nat, p: nat)
    requires from <= p && AccessionStartsAt(s, p)
    ensures AccessionAt(s, p) in FindAccessions(s, from)
    decreases |s| - from
  {
    NextAccessionNoLater(s, from, p);
    var q := NextAccession(s, from).value;
    var a := AccessionAt(s, p);
    FindAccessionsStep(s, from, q, a);
    if q < p {
      var next := q + AccessionLength(s, q);
      AccessionSkip(s, q, p);
      FindAccessionsComplete(s, next, p);
    }
  }

  /** Every accession the scan reports is the match at some position of the
      text; `p` is that position. */
  lemma {:induction false} FindAccessionsSound(s: string, from: nat, a: string) returns (p: nat)
    requires a in FindAccessions(s, from)
    ensures AccessionStartsAt(s, p) && a == AccessionAt(s, p)
    decreases |s| - from
  {
    var m := NextAccession(s, from);
    if m.None? {
      FindAccessionsNone(s, from);
      assert false;
    }
    var q := m.value;
    FindAccessionsStep(s, from, q, a);
    var next := q + AccessionLength(s, q);
    var rest := FindAccessions(s, next);
    if a in rest {
      p := FindAccessionsSound(s, next, a);
    } else {
      p := q;
    }
  }

  /** No accession starts at or after `from` when no `G` occurs there. */
  lemma {:induction false} NoPrefixNoAccession(s: string, from: nat)
    requires forall k :: from <= k < |s| ==> s[k] != 'G'
    ensures NextAccession(s, from).None?
    decreases |s| - from
  {
    if from + 4 <= |s| {
      assert !AccessionStartsAt(s, from);
      NoPrefixNoAccession(s, from + 1);
    }
  }

  /** `\d{1,10}` stops after ten digits: a record text that is `GSE`
      followed by a longer digit run yields `GSE` and the first ten digits
      only, and the rest of the run is not reported. */
  lemma LongRunTruncated(digits: string)
    requires |digits| > MaxAccessionDigits && AllDigits(digits)
    ensures AccessionsIn(AccessionPrefix + digits) == {AccessionPrefix + digits[..MaxAccessionDigits]}
  {
    var s := AccessionPrefix + digits;
    assert AccessionStartsAt(s, 0);
    assert NextAccession(s, 0) == Some(0);
    assert forall k :: 3 <= k < |s| ==> s[k] == digits[k - 3];
    assert DigitsFrom(s, 3) == |digits|;
    assert AccessionLength(s, 0) == 13;
    assert AccessionAt(s, 0) == s[..13] == AccessionPrefix + digits[..MaxAccessionDigits];
    NoPrefixNoAccession(s, 13);
    assert FindAccessions(s, 13) == {};
  }

  /** The accessions of a text are exactly the `GSE\d{1,10}` matches at the
      positions where `GSE` is followed by a digit: each one occurs in the
      text, and a digit run longer than ten is cut to its first ten digits. */
  lemma AccessionsInExactly(text: string, a: string)
    ensures a in AccessionsIn(text)
            <==> exists p: nat :: AccessionStartsAt(text, p) && a == AccessionAt(text, p)
  {
    if a in AccessionsIn(text) {
      var p := FindAccessionsSound(text, 0, a);
    }
    if exists p: nat :: AccessionStartsAt(text, p) && a == AccessionAt(text, p) {
      var p: nat :| AccessionStartsAt(text, p) && a == AccessionAt(text, p);
      FindAccessionsComplete(text, 0, p);
    }
  }

  /** `fetch_geo_accession_details(ids)`: an empty id list returns at once;
      otherwise up to three `efetch` calls, retrying on `IncompleteRead`,
      and the accessions of the first text that arrives. */
  function FetchAccessionDetails(ids: seq<string>, attempts: seq<Attempt<string>>): (r: Resolved)
    ensures |ids| == 0 ==> r == Resolved({}, 0)
    ensures r.calls <= Retries && r.calls <= |attempts|
    ensures forall a :: a in r.accessions ==> IsAccession(a)
    ensures 0 < |ids| ==> forall k :: 0 <= k < r.calls - 1 ==> attempts[k].Retryable?
    ensures 0 < |ids| && 0 < r.calls && attempts[r.calls - 1].Returned?
            ==> r.accessions == AccessionsIn(attempts[r.calls - 1].value)
    ensures !(0 < r.calls && attempts[r.calls - 1].Returned?) ==> r.accessions == {}
    ensures 0 < |ids| ==> forall k :: StopsAt(attempts, Retries, k) && attempts[k].Returned?
                                      ==> r.calls == k + 1 && r.accessions == AccessionsIn(attempts[k].value)
  {
    if |ids| == 0 then Resolved({}, 0)
    else
      var o := Run(attempts, Retries);
      assert forall k :: StopsAt(attempts, Retries, k) && attempts[k].Returned? ==> o.calls == k + 1 by {
        forall k | StopsAt(attempts, Retries, k) && attempts[k].Returned?
          ensures o.calls == k + 1
        {
          RunReturnsIff(attempts, Retries, k);
        }
      }
      match o.value
      case Some(text) => Resolved(AccessionsIn(text), o.calls)
      case None => Resolved({}, o.calls)
  }

  /** `search_geo_accessions`: up to three `esearch` calls, retrying on
      `RuntimeError`; `([], 0)` when no call returned a page. */
  function SearchGeoAccessions(attempts: seq<Attempt<SearchPage>>): (r: SearchPage)
    ensures || (exists k :: StopsAt(attempts, Retries, k) && attempts[k] == Returned(r))
            || (r == SearchPage([], 0) && forall k :: StopsAt(attempts, Retries, k) ==> attempts[k].Fatal?)
  {
    var o := Run(attempts, Retries);
    match o.value
    case Some(page) =>
      assert StopsAt(attempts, Retries, o.calls - 1);
      page
    case None =>
      assert forall k :: StopsAt(attempts, Retries, k) ==> attempts[k].Fatal? by {
        forall k | StopsAt(attempts, Retries, k)
          ensures attempts[k].Fatal?
        {
          RunReturnsIff(attempts, Retries, k);
        }
      }
      SearchPage([], 0)
  }

  // ---------------------------------------------------------------------
  // Pagination

  /** The page the loop receives from its `k`-th search, given what the
      search at each offset returns. */
  function PageAt(pages: nat -> SearchPage, pageSize: nat, k: nat): SearchPage
  {
    pages(Offset(k, pageSize))
  }

  /** After its `k`-th search the loop goes on: the page was not empty and
      the next offset is still below the total the page reported. */
  predicate Continues(pages: nat -> SearchPage, pageSize: nat, k: nat)
  {
    PageAt(pages, pageSize, k).ids != [] && Offset(k + 1, pageSize) < PageAt(pages, pageSize, k).count
  }

  /** The loop went on after each of its first `n` searches. */
  ghost predicate ContinuedThrough(pages: nat -> SearchPage, pageSize: nat, n: nat)
  {
    n == 0 || (ContinuedThrough(pages, pageSize, n - 1) && Continues(pages, pageSize, n - 1))
  }

  lemma {:induction false} ContinuedThroughAll(pages: nat -> SearchPage, pageSize: nat, n: nat)
    requires ContinuedThrough(pages, pageSize, n)
    ensures forall k: nat :: k < n ==> Continues(pages, pageSize, k)
  {
    if n > 0 {
      ContinuedThroughAll(pages, pageSize, n - 1);
    }
  }

  /** Union of the accessions resolved from the first `n` pages; `resolve(o)`
      is what resolving the ids of the page at offset `o` yields. */
  function Collected(pages: nat -> SearchPage, resolve: nat -> set<string>, pageSize: nat, n: nat): set<string>
  {
    if n == 0 then {}
    else
      Collected(pages, resolve, pageSize, n - 1)
      + (if PageAt(pages, pageSize, n - 1).ids == [] then {} else resolve(Offset(n - 1, pageSize)))
  }

  /** What the exit state of the pagination loop implies about how many
      searches it made. */
  lemma SearchCountBounds(pages: nat -> SearchPage, pageSize: nat, bound: nat, searches: nat)
    requires pageSize > 0 && searches >= 1
    requires searches == 1 || Offset(searches - 1, pageSize) < bound
    requires forall k: nat :: k < searches - 1 ==> Continues(pages, pageSize, k)
    ensures searches <= Max(1, CeilDiv(bound, pageSize))
    ensures PageAt(pages, pageSize, 0).count <= pageSize ==> searches == 1
  {
    if searches > 1 {
      assert Continues(pages, pageSize, 0);
      assert Offset(1, pageSize) == pageSize;
      OffsetIsProduct(searches - 1, pageSize);
      PagesBelowCeil(searches, pageSize, bound);
    }
  }

  /** The `while True` loop of `fetch_all_geo_accessions`: search at the
      current offset, stop at an empty page, resolve and collect the page's
      accessions, advance by a page and stop once the offset reaches the
      reported total. Every total is at most `bound`; without such a bound
      the loop need not end. */
  method Paginate(pages: nat -> SearchPage, resolve: nat -> set<string>, pageSize: nat, bound: nat)
    returns (accessions: set<string>, searches: nat)
    requires pageSize > 0
    requires forall offset: nat :: pages(offset).count <= bound
    ensures 1 <= searches <= Max(1, CeilDiv(bound, pageSize))
    ensures forall k: nat :: k < searches - 1 ==> Continues(pages, pageSize, k)
    ensures !Continues(pages, pageSize, searches - 1)
    ensures accessions == Collected(pages, resolve, pageSize, searches)
    ensures PageAt(pages, pageSize, 0).count <= pageSize ==> searches == 1
  {
    accessions := {};
    searches := 0;
    var offset: nat := 0;
    var done := false;
    while !done
      invariant !done ==> offset == Offset(searches, pageSize) && offset <= bound
      invariant !done && searches > 0 ==> offset < bound
      invariant searches <= 1 || Offset(searches - 1, pageSize) < bound
      invariant done ==> searches >= 1 && !Continues(pages, pageSize, searches - 1)
      invariant !done && searches > 0 ==> Continues(pages, pageSize, searches - 1)
      invariant searches == 0 || ContinuedThrough(pages, pageSize, searches - 1)
      invariant accessions == Collected(pages, resolve, pageSize, searches)
      decreases if done then 0 else bound + 1 - offset
    {
      ghost var k := searches;
      assert ContinuedThrough(pages, pageSize, k);
      var page := pages(offset);
      assert page == PageAt(pages, pageSize, k);
      searches := searches + 1;
      if page.ids == [] {
        done := true;
      } else {
        accessions := accessions + resolve(offset);
        offset := offset + pageSize;
        assert offset == Offset(k + 1, pageSize);
        if offset >= page.count {
          done := true;
        } else {
          assert Continues(pages, pageSize, k);
        }
      }
    }
    ContinuedThroughAll(pages, pageSize, searches - 1);
    SearchCountBounds(pages, pageSize, bound, searches);
  }

  /** The page the `esearch` calls at offset `o` return. */
  function Pages(search: nat -> seq<Attempt<SearchPage>>): nat -> SearchPage
  {
    (o: nat) => SearchGeoAccessions(search(o))
  }

  /** The accessions the `efetch` calls for the page at offset `o` resolve. */
  function Resolver(search: nat -> seq<Attempt<SearchPage>>, details: nat -> seq<Attempt<string>>): nat -> set<string>
  {
    (o: nat) => FetchAccessionDetails(SearchGeoAccessions(search(o)).ids, details(o)).accessions
  }

  /** `fetch_all_geo_accessions(keyword, max_results=pageSize)`. `search(o)`
      and `details(o)` are the outcomes of the `esearch` and `efetch` calls
      for the page at offset `o`. */
  method FetchAllGeoAccessions(search: nat -> seq<Attempt<SearchPage>>, details: nat -> seq<Attempt<string>>,
                               pageSize: nat, bound: nat)
    returns (accessions: set<string>, searches: nat)
    requires pageSize > 0
    requires forall offset: nat :: SearchGeoAccessions(search(offset)).count <= bound
    ensures 1 <= searches <= Max(1, CeilDiv(bound, pageSize))
    ensures forall k: nat :: k < searches - 1 ==> Continues(Pages(search), pageSize, k)
    ensures !Continues(Pages(search), pageSize, searches - 1)
    ensures accessions == Collected(Pages(search), Resolver(search, details), pageSize, searches)
    ensures forall a :: a in accessions ==> IsAccession(a)
    ensures PageAt(Pages(search), pageSize, 0).count <= pageSize ==> searches == 1
  {
    accessions, searches := Paginate(Pages(search), Resolver(search, details), pageSize, bound);
    CollectedWellFormed(search, details, pageSize, searches);
  }

  lemma {:induction false} CollectedWellFormed(search: nat -> seq<Attempt<SearchPage>>, details: nat -> seq<Attempt<string>>,
                                               pageSize: nat, n: nat)
    ensures forall a :: a in Collected(Pages(search), Resolver(search, details), pageSize, n) ==> IsAccession(a)
  {
    if n > 0 {
      CollectedWellFormed(search, details, pageSize, n - 1);
      var o := Offset(n - 1, pageSize);
      var found := FetchAccessionDetails(SearchGeoAccessions(search(o)).ids, details(o));
      assert Resolver(search, details)(o) == found.accessions;
    }
  }
}

=== FILE: keyword.dfy ===
/** `sanitize_keyword`: a filesystem-safe token made from the search
    keyword. */
module Keyword {
  import opened Strings

  /** `re.sub(r'[^A-Za-z0-9_]', '_', keyword.strip())`. */
  function Sanitize(keyword: string): (r: string)
    ensures |r| == |Strip(keyword)|
    ensures forall i :: 0 <= i < |r| ==> IsWordChar(r[i])
    ensures forall i :: 0 <= i < |r| && IsWordChar(Strip(keyword)[i]) ==> r[i] == Strip(keyword)[i]
    ensures forall i :: 0 <= i < |r| && !IsWordChar(Strip(keyword)[i]) ==> r[i] == '_'
  {
    var t := Strip(keyword);
    seq(|t|, i requires 0 <= i < |t| => if IsWordChar(t[i]) then t[i] else '_')
  }

  /** The sanitised keyword is already sanitised: it has no surrounding
      whitespace and nothing outside the word class to replace. */
  lemma SanitizeIdempotent(keyword: string)
    ensures Sanitize(Sanitize(keyword)) == Sanitize(keyword)
  {
    var r := Sanitize(keyword);
    forall k | 0 <= k < |r|
      ensures !IsSpace(r[k])
    {
      WordCharIsNotSpace(r[k]);
    }
    StripNoSpace(r);
  }

  /** A keyword made only of word characters, without surrounding
      whitespace, passes through unchanged. */
  lemma SanitizeKeepsWords(keyword: string)
    requires forall i :: 0 <= i < |keyword| ==> IsWordChar(keyword[i])
    ensures Sanitize(keyword) == keyword
  {
    forall k | 0 <= k < |keyword|
      ensures !IsSpace(keyword[k])
    {
      WordCharIsNotSpace(keyword[k]);
    }
    StripNoSpace(keyword);
  }
}

=== FILE: numbers.dfy ===
/** Small integer helpers shared by the pagination and batching loops. */
module Numbers {

  function Min(a: int, b: int): int {
    if a <= b then a else b
  }

  function Max(a: int, b: int): int {
    if a <= b then b else a
  }

  /** Number of pages of `size` items needed to cover `total` items. */
  function CeilDiv(total: nat, size: nat): (n: nat)
    requires size > 0
    ensures n * size >= total
    ensures n == 0 || (n - 1) * size < total
  {
    if total == 0 then 0
    else
      var n := (total - 1) / size + 1;
      assert (n - 1) * size <= total - 1;
      n
  }

  /** If page `count - 1` still started below `total`, there were at most
      CeilDiv(total, size) pages. */
  lemma PagesBelowCeil(count: nat, size: nat, total: nat)
    requires size > 0
    requires count >= 1 && (count - 1) * size < total
    ensures count <= CeilDiv(total, size)
  {
    var c := CeilDiv(total, size);
    if count > c {
      assert count - 1 >= c;
      MulMonotone(c, count - 1, size);
      assert false;
    }
  }

  /** Covering `total` exactly: if `count` pages of `size` reach `total` but
      `count - 1` do not, then `count` is CeilDiv(total, size). */
  lemma CeilDivExact(count: nat, size: nat, total: nat)
    requires size > 0
    requires count * size >= total
    requires count == 0 || (count - 1) * size < total
    ensures count == CeilDiv(total, size)
  {
    var c := CeilDiv(total, size);
    if count < c {
      MulMonotone(count, c - 1, size);
      assert false;
    } else if count > c {
      PagesBelowCeil(count, size, total);
      assert false;
    }
  }

  lemma MulMonotone(a: nat, b: nat, size: nat)
    requires a <= b
    ensures a * size <= b * size
  {
  }

  /** Where the `k`-th page of `size` items starts: `k` pages in. */
  function Offset(k: nat, size: nat): nat
  {
    if k == 0 then 0 else Offset(k - 1, size) + size
  }

  lemma {:induction false} OffsetIsProduct(k: nat, size: nat)
    ensures Offset(k, size) == k * size
  {
    if k > 0 {
      OffsetIsProduct(k - 1, size);
    }
  }
}

=== FILE: order.dfy ===
/** Python's ordering of `str` values and `sorted(set(xs))` on lists of
    strings. */
module Order {

  /** `a < b` on Python strings: lexicographic by code point, a proper prefix
      coming first. */
  predicate Below(a: string, b: string)
    decreases |a|
  {
    if |a| == 0 then |b| > 0
    else if |b| == 0 then false
    else if a[0] != b[0] then a[0] < b[0]
    else Below(a[1..], b[1..])
  }

  lemma {:induction false} BelowIrreflexive(a: string)
    ensures !Below(a, a)
    decreases |a|
  {
    if |a| > 0 {
      BelowIrreflexive(a[1..]);
    }
  }

  lemma {:induction false} BelowAsymmetric(a: string, b: string)
    requires Below(a, b)
    ensures !Below(b, a)
    decreases |a|
  {
    if |a| > 0 && |b| > 0 && a[0] == b[0] {
      BelowAsymmetric(a[1..], b[1..]);
    }
  }

  lemma {:induction false} BelowTransitive(a: string, b: string, c: string)
    requires Below(a, b) && Below(b, c)
    ensures Below(a, c)
    decreases |a|
  {
    if |a| > 0 && a[0] == b[0] && b[0] == c[0] {
      BelowTransitive(a[1..], b[1..], c[1..]);
    }
  }

  lemma {:induction false} BelowTotal(a: string, b: string)
    ensures a == b || Below(a, b) || Below(b, a)
    decreases |a|
  {
    if |a| > 0 && |b| > 0 && a[0] == b[0] {
      BelowTotal(a[1..], b[1..]);
      if a[1..] == b[1..] {
        assert a == [a[0]] + a[1..] && b == [b[0]] + b[1..];
      }
    }
  }

  /** Strictly increasing, hence free of duplicates. */
  predicate StrictlySorted(xs: seq<string>) {
    forall i, j :: 0 <= i < j < |xs| ==> Below(xs[i], xs[j])
  }

  lemma StrictlySortedDistinct(xs: seq<string>, i: int, j: int)
    requires StrictlySorted(xs)
    requires 0 <= i < |xs| && 0 <= j < |xs| && i != j
    ensures xs[i] != xs[j]
  {
    if i < j {
      BelowIrreflexive(xs[i]);
    } else {
      BelowIrreflexive(xs[j]);
    }
  }

  /** Inserts `x` into a strictly sorted list unless it is already there. */
  function Insert(x: string, xs: seq<string>): (r: seq<string>)
    requires StrictlySorted(xs)
    ensures StrictlySorted(r)
    ensures forall y :: y in r <==> y == x || y in xs
    decreases |xs|
  {
    if |xs| == 0 then [x]
    else if x == xs[0] then xs
    else if Below(x, xs[0]) then
      assert forall j :: 0 < j < |xs| ==> Below(xs[0], xs[j]);
      InsertBelowHead(x, xs);
      [x] + xs
    else
      BelowTotal(x, xs[0]);
      var rest := Insert(x, xs[1..]);
      assert forall y :: y in rest ==> Below(xs[0], y) by {
        forall y | y in rest ensures Below(xs[0], y) {
          if y != x {
            var j :| 0 <= j < |xs[1..]| && xs[1..][j] == y;
            assert xs[j + 1] == y;
          }
        }
      }
      assert xs == [xs[0]] + xs[1..];
      PrependSmallest(xs[0], rest);
      [xs[0]] + rest
  }

  lemma InsertBelowHead(x: string, xs: seq<string>)
    requires StrictlySorted(xs) && |xs| > 0 && Below(x, xs[0])
    ensures StrictlySorted([x] + xs)
  {
    forall j | 0 < j < |xs|
      ensures Below(x, xs[j])
    {
      BelowTransitive(x, xs[0], xs[j]);
    }
  }

  lemma PrependSmallest(h: string, xs: seq<string>)
    requires StrictlySorted(xs)
    requires forall y :: y in xs ==> Below(h, y)
    ensures StrictlySorted([h] + xs)
  {
    forall i, j | 0 <= i < j < |[h] + xs|
      ensures Below(([h] + xs)[i], ([h] + xs)[j])
    {
      if i == 0 {
        assert ([h] + xs)[j] == xs[j - 1];
      }
    }
  }

  /** `sorted(set(xs))`: the distinct elements of `xs` in increasing order. */
  function SortedSet(xs: seq<string>): (r: seq<string>)
    ensures StrictlySorted(r)
    ensures forall y :: y in r <==> y in xs
  {
    if |xs| == 0 then []
    else Insert(xs[0], SortedSet(xs[1..]))
  }

  lemma HeadIn(xs: seq<string>)
    requires |xs| > 0
    ensures xs[0] in xs
  {
  }

  /** A finite set of strings has exactly one strictly sorted listing, so
      `sorted(set(xs))` depends only on the set of elements of `xs`, never on
      their order or multiplicity. */
  lemma {:induction false} SortedUnique(a: seq<string>, b: seq<string>)
    requires StrictlySorted(a) && StrictlySorted(b)
    requires forall y :: y in a <==> y in b
    ensures a == b
    decreases |a|
  {
    if |a| == 0 {
      if |b| > 0 {
        HeadIn(b);
        assert false;
      }
    } else {
      assert a[0] in b && b[0] in a;
      var i :| 0 <= i < |b| && b[i] == a[0];
      var j :| 0 <= j < |a| && a[j] == b[0];
      if i != 0 {
        if j == 0 {
          BelowIrreflexive(a[0]);
        } else {
          BelowAsymmetric(a[0], a[j]);
        }
        assert false;
      }
      forall y
        ensures y in a[1..] <==> y in b[1..]
      {
        if y in a[1..] {
          var k :| 0 <= k < |a[1..]| && a[1..][k] == y;
          assert a[k + 1] == y;
          StrictlySortedDistinct(a, 0, k + 1);
          assert y in b;
          assert y != b[0];
          var m :| 0 <= m < |b| && b[m] == y;
          assert m != 0;
          assert b[1..][m - 1] == y;
        }
        if y in b[1..] {
          var k :| 0 <= k < |b[1..]| && b[1..][k] == y;
          assert b[k + 1] == y;
          StrictlySortedDistinct(b, 0, k + 1);
          assert y in a;
          var m :| 0 <= m < |a| && a[m] == y;
          assert m != 0;
          assert a[1..][m - 1] == y;
        }
      }
      SortedUnique(a[1..], b[1..]);
      assert a == [a[0]] + a[1..] && b == [b[0]] + b[1..];
    }
  }
}

=== FILE: pubmed_links.dfy ===
/** The literature-link stage (`fetch_pubmed_ids_from_geo`): each
    accession's GEO landing page is fetched, with up to three attempts, and
    the PubMed ids linked from it are joined with ", ". */
module PubmedLinks {
  import opened Wrappers
  import opened Strings
  import opened Retry

  /** One row of `pubmed_data`: the accession and its comma-joined PubMed ids
      (`''` when none were found or the page could not be fetched). */
  datatype LinkRecord = LinkRecord(accession: string, pubmedIds: string)

  /** What one `requests.get` of a landing page did: the `href` targets of
      its `<a href>` elements, or a `RequestException` (connection errors and
      HTTP error statuses alike). */
  datatype PageFetch = Links(hrefs: seq<string>) | RequestFailed

  const PubmedPath: string := "pubmed/"
  const Separator: string := ", "

  /** `re.search(r'pubmed/(\d+)', href).group(1)`: the whole digit run after
      the first `pubmed/` that a digit follows. */
  function PubmedIdOf(href: string): (r: Option<string>)
    ensures r.None? <==> forall p :: !MatchesAt(href, PubmedPath, 1, p)
    ensures r.Some? ==> exists p :: && FirstMatchAt(href, PubmedPath, 1, p)
                                    && r.value == href[p + |PubmedPath|..p + |PubmedPath| + DigitsFrom(href, p + |PubmedPath|)]
    ensures r.Some? ==> |r.value| >= 1 && AllDigits(r.value)
  {
    match FirstMatch(href, PubmedPath, 1, 0)
    case None => None
    case Some(p) =>
      var id := href[p + |PubmedPath|..p + |PubmedPath| + DigitsFrom(href, p + |PubmedPath|)];
      assert FirstMatchAt(href, PubmedPath, 1, p);
      assert id[0] == href[p + |PubmedPath|];
      Some(id)
  }

  /** The list comprehension over the page's links: the id of every href that
      has one, in href order. */
  function ExtractPubmedIds(hrefs: seq<string>): (ids: seq<string>)
    ensures |ids| <= |hrefs|
    ensures forall i :: 0 <= i < |ids| ==> |ids[i]| >= 1 && AllDigits(ids[i])
    ensures forall x :: x in ids <==> exists h :: h in hrefs && PubmedIdOf(h) == Some(x)
  {
    if |hrefs| == 0 then []
    else
      var rest := ExtractPubmedIds(hrefs[1..]);
      assert forall h :: h in hrefs <==> h == hrefs[0] || h in hrefs[1..];
      match PubmedIdOf(hrefs[0])
      case Some(id) => [id] + rest
      case None => rest
  }

  /** The ids keep href order: extracting from two runs of links gives the
      ids of the first run, then those of the second. */
  lemma {:induction false} ExtractPubmedIdsAppend(a: seq<string>, b: seq<string>)
    ensures ExtractPubmedIds(a + b) == ExtractPubmedIds(a) + ExtractPubmedIds(b)
    decreases |a|
  {
    if |a| == 0 {
      assert a + b == b;
    } else {
      assert (a + b)[0] == a[0];
      assert (a + b)[1..] == a[1..] + b;
      ExtractPubmedIdsAppend(a[1..], b);
    }
  }

  function AsAttempt(f: PageFetch): Attempt<seq<string>>
  {
    match f
    case Links(hrefs) => Returned(hrefs)
    case RequestFailed => Retryable
  }

  /** `k` is the first attempt within the bound that fetched the page. */
  ghost predicate FirstPageAt(attempts: seq<PageFetch>, k: int)
  {
    && 0 <= k < Retries
    && k < |attempts|
    && attempts[k].Links?
    && forall j :: 0 <= j < k ==> attempts[j].RequestFailed?
  }

  /** The ids behind an accession's record: those of the first page fetched
      within three attempts, retrying every `RequestException`, or none once
      all three attempts have failed. */
  function LinkedIds(attempts: seq<PageFetch>): (ids: seq<string>)
    ensures forall k :: FirstPageAt(attempts, k) ==> ids == ExtractPubmedIds(attempts[k].hrefs)
    ensures (forall k :: 0 <= k < Retries && k < |attempts| ==> attempts[k].RequestFailed?) ==> ids == []
    ensures forall i :: 0 <= i < |ids| ==> |ids[i]| >= 1 && AllDigits(ids[i])
  {
    var tries := seq(|attempts|, i requires 0 <= i < |attempts| => AsAttempt(attempts[i]));
    var o := Run(tries, Retries);
    assert forall k :: FirstPageAt(attempts, k) ==> o.calls == k + 1 && o.value.Some? by {
      forall k | FirstPageAt(attempts, k)
        ensures o.calls == k + 1 && o.value.Some?
      {
        assert StopsAt(tries, Retries, k) && tries[k].Returned?;
        RunReturnsIff(tries, Retries, k);
      }
    }
    if o.value.Some? then ExtractPubmedIds(o.value.value) else []
  }

  /** `fetch_pubmed_data(accession)`: the record tagged with its accession
      whose field is the ", "-join of the ids of the first page fetched, or
      `''` once all three attempts have failed. */
  function FetchPubmedData(accession: string, attempts: seq<PageFetch>): (r: LinkRecord)
    ensures r.accession == accession
    ensures forall k :: FirstPageAt(attempts, k) ==> r.pubmedIds == Join(ExtractPubmedIds(attempts[k].hrefs), Separator)
    ensures (forall k :: 0 <= k < Retries && k < |attempts| ==> attempts[k].RequestFailed?) ==> r.pubmedIds == ""
  {
    LinkRecord(accession, Join(LinkedIds(attempts), Separator))
  }

  /** `fetch_pubmed_ids_from_geo`: one record per accession, in input order
      (`executor.map` yields results in the order of its inputs). `net(a)`
      lists what the GETs of accession `a`'s page do. */
  function FetchPubmedIdsFromGeo(accessions: seq<string>, net: string -> seq<PageFetch>): (rs: seq<LinkRecord>)
    ensures |rs| == |accessions|
    ensures forall i :: 0 <= i < |rs| ==> rs[i].accession == accessions[i]
    ensures forall i :: 0 <= i < |rs| ==> rs[i].pubmedIds == Join(LinkedIds(net(accessions[i])), Separator)
  {
    seq(|accessions|, i requires 0 <= i < |accessions| => FetchPubmedData(accessions[i], net(accessions[i])))
  }
}

=== FILE: retry.dfy ===
/** The bounded retry loops of the pipeline, as a fold over the outcomes
    that successive calls to a remote service produce. */
module Retry {
  import opened Wrappers
  import opened Numbers

  /** What one call to a remote service did: returned a value, raised the
      error class the loop retries on, or raised anything else. */
  datatype Attempt<+T> = Returned(value: T) | Retryable | Fatal

  /** Result of a retry loop: the returned value, if a call returned one,
      and how many calls were made. */
  datatype Outcome<+T> = Outcome(value: Option<T>, calls: nat)

  /** Every retry loop in the pipeline makes at most three attempts. */
  const Retries: nat := 3

  /** The loop ends at attempt `k`: the first attempt within the bound that
      did not raise a retryable error. */
  ghost predicate StopsAt<T>(attempts: seq<Attempt<T>>, retries: nat, k: int)
  {
    && 0 <= k < retries
    && k < |attempts|
    && !attempts[k].Retryable?
    && forall j :: 0 <= j < k ==> attempts[j].Retryable?
  }

  /** `for attempt in range(retries): try: return call() except Retry: pass
      except: break`, where `attempts` lists what successive calls do. A list
      shorter than `retries` ends the loop when it runs out, as if the
      remaining attempts had also failed. */
  function Run<T>(attempts: seq<Attempt<T>>, retries: nat): (r: Outcome<T>)
    ensures r.calls <= Min(retries, |attempts|)
    ensures forall k :: 0 <= k < r.calls - 1 ==> attempts[k].Retryable?
    ensures r.calls < Min(retries, |attempts|) ==> 0 < r.calls && !attempts[r.calls - 1].Retryable?
    ensures r.value.Some? <==> 0 < r.calls && attempts[r.calls - 1].Returned?
    ensures r.value.Some? ==> r.value.value == attempts[r.calls - 1].value
    decreases retries
  {
    if retries == 0 || |attempts| == 0 then Outcome(None, 0)
    else
      match attempts[0]
      case Returned(v) => Outcome(Some(v), 1)
      case Fatal => Outcome(None, 1)
      case Retryable =>
        var rest := Run(attempts[1..], retries - 1);
        Outcome(rest.value, rest.calls + 1)
  }

  /** The loop yields a value exactly when some attempt within the bound
      returns one after nothing but retryable errors, and then it yields
      that attempt's value. */
  lemma {:induction false} RunReturnsIff<T>(attempts: seq<Attempt<T>>, retries: nat, k: int)
    ensures (StopsAt(attempts, retries, k) && attempts[k].Returned?)
            <==> (Run(attempts, retries).value.Some? && Run(attempts, retries).calls == k + 1)
  {
    var r := Run(attempts, retries);
    if StopsAt(attempts, retries, k) {
      if r.calls < k + 1 {
        assert false;
      } else if r.calls > k + 1 {
        assert false;
      }
    }
  }

  /** When every attempt within the bound fails, the loop yields nothing,
      whatever kind of failure ended it. */
  lemma AllFailedYieldsNothing<T>(attempts: seq<Attempt<T>>, retries: nat)
    requires forall k :: 0 <= k < retries && k < |attempts| ==> !attempts[k].Returned?
    ensures Run(attempts, retries).value.None?
  {
  }
}

=== FILE: strings.dfy ===
/** Character classes, `str.strip()`, `str.split(',')` and `str.join`, and the
    left-to-right "first match" scan that `re.search` performs for the
    literal-then-digits patterns of the extraction rules.

    Character classes are ASCII: `\d` is `[0-9]` and `\w` is `[A-Za-z0-9_]`. */
module Strings {
  import opened Wrappers

  predicate IsDigit(c: char) {
    '0' <= c <= '9'
  }

  predicate IsAsciiLetter(c: char) {
    'A' <= c <= 'Z' || 'a' <= c <= 'z'
  }

  /** The class `[A-Za-z0-9_]`. */
  predicate IsWordChar(c: char) {
    IsAsciiLetter(c) || IsDigit(c) || c == '_'
  }

  /** The characters for which Python's `str.isspace` holds; `str.strip()`
      with no argument removes exactly these. */
  predicate IsSpace(c: char) {
    || '\t' <= c <= '\r'
    || '\U{1C}' <= c <= ' '
    || c == '\U{85}' || c == '\U{A0}' || c == '\U{1680}'
    || '\U{2000}' <= c <= '\U{200A}'
    || c == '\U{2028}' || c == '\U{2029}' || c == '\U{202F}'
    || c == '\U{205F}' || c == '\U{3000}'
  }

  predicate AllDigits(s: string) {
    forall k :: 0 <= k < |s| ==> IsDigit(s[k])
  }

  predicate NoSpace(s: string) {
    forall k :: 0 <= k < |s| ==> !IsSpace(s[k])
  }

  lemma WordCharIsNotSpace(c: char)
    requires IsWordChar(c)
    ensures !IsSpace(c)
  {
  }

  // ---------------------------------------------------------------------
  // str.strip()

  /** Number of whitespace characters at the front of `s`. */
  function LeadingSpace(s: string): (n: nat)
    ensures n <= |s|
    ensures forall k :: 0 <= k < n ==> IsSpace(s[k])
    ensures n == |s| || !IsSpace(s[n])
  {
    if |s| > 0 && IsSpace(s[0]) then 1 + LeadingSpace(s[1..]) else 0
  }

  /** Number of whitespace characters at the back of `s`. */
  function TrailingSpace(s: string): (n: nat)
    ensures n <= |s|
    ensures forall k :: |s| - n <= k < |s| ==> IsSpace(s[k])
    ensures n == |s| || !IsSpace(s[|s| - n - 1])
  {
    if |s| > 0 && IsSpace(s[|s| - 1]) then 1 + TrailingSpace(s[..|s| - 1]) else 0
  }

  /** Python's `s.strip()`: the window of `s` left after removing the
      whitespace at both ends. */
  function Strip(s: string): (r: string)
    ensures LeadingSpace(s) + |r| <= |s|
    ensures r == s[LeadingSpace(s)..LeadingSpace(s) + |r|]
    ensures forall k :: 0 <= k < |s| && !(LeadingSpace(s) <= k < LeadingSpace(s) + |r|) ==> IsSpace(s[k])
    ensures r == [] || (!IsSpace(r[0]) && !IsSpace(r[|r| - 1]))
  {
    var t := s[LeadingSpace(s)..];
    t[..|t| - TrailingSpace(t)]
  }

  /** A string with no whitespace is its own strip. */
  lemma StripNoSpace(s: string)
    requires NoSpace(s)
    ensures Strip(s) == s
  {
    assert LeadingSpace(s) == 0;
    var t := s[LeadingSpace(s)..];
    assert TrailingSpace(t) == 0;
  }

  /** Stripping a single leading blank off a whitespace-free word. */
  lemma StripBlankWord(w: string)
    requires NoSpace(w)
    ensures Strip(" " + w) == w
  {
    var s := " " + w;
    assert s[1..] == w;
    if |w| > 0 {
      assert LeadingSpace(s[1..]) == 0;
    }
    assert LeadingSpace(s) == 1;
    var t := s[1..];
    assert TrailingSpace(t) == 0;
  }

  // ---------------------------------------------------------------------
  // str.join and str.split

  /** Python's `sep.join(parts)`: the parts in order with `sep` between
      neighbours. */
  function Join(parts: seq<string>, sep: string): string
  {
    if |parts| == 0 then ""
    else if |parts| == 1 then parts[0]
    else parts[0] + sep + Join(parts[1..], sep)
  }

  /** A join starts with the first part, ends with the last, and is longer
      than their lengths together by at least one separator when there are
      several parts. */
  lemma {:induction false} JoinEnds(parts: seq<string>, sep: string)
    requires |parts| > 0
    ensures parts[0] <= Join(parts, sep)
    ensures var last := parts[|parts| - 1];
            var r := Join(parts, sep);
            |last| <= |r| && r[|r| - |last|..] == last
    ensures |parts| > 1 ==> |Join(parts, sep)| >= |parts[0]| + |sep| + |parts[|parts| - 1]|
  {
    if |parts| > 1 {
      var tail := Join(parts[1..], sep);
      JoinEnds(parts[1..], sep);
      var r := Join(parts, sep);
      assert r == parts[0] + sep + tail;
      assert parts[1..][|parts[1..]| - 1] == parts[|parts| - 1];
      assert r[..|parts[0]|] == parts[0];
      var last := parts[|parts| - 1];
      assert r[|r| - |last|..] == tail[|tail| - |last|..];
    }
  }

  /** Python's `s.split(sep)` for a one-character separator: the pieces
      between separators, and one piece more than there are separators. */
  function Split(s: string, sep: char): (parts: seq<string>)
    ensures |parts| >= 1
    ensures forall i :: 0 <= i < |parts| ==> sep !in parts[i]
  {
    if |s| == 0 then [""]
    else
      var rest := Split(s[1..], sep);
      if s[0] == sep then
        assert ([""] + rest)[1..] == rest;
        [""] + rest
      else
        var parts := [[s[0]] + rest[0]] + rest[1..];
        assert parts[1..] == rest[1..];
        parts
  }

  /** Joining the pieces of a split with the separator gives back the
      string. */
  lemma {:induction false} JoinSplit(s: string, sep: char)
    ensures Join(Split(s, sep), [sep]) == s
    decreases |s|
  {
    if |s| > 0 {
      JoinSplit(s[1..], sep);
      var rest := Split(s[1..], sep);
      assert s == [s[0]] + s[1..];
      if s[0] == sep {
        assert Split(s, sep) == [""] + rest;
        assert ([""] + rest)[1..] == rest;
      } else {
        var parts := [[s[0]] + rest[0]] + rest[1..];
        assert Split(s, sep) == parts;
        assert parts[1..] == rest[1..];
        if |rest| > 1 {
          assert rest == [rest[0]] + rest[1..];
          assert Join(rest, [sep]) == rest[0] + [sep] + Join(rest[1..], [sep]);
        }
      }
    }
  }

  lemma SplitAfterPiece(a: string, sep: char, b: string)
    requires sep !in a
    ensures Split(a + [sep] + b, sep) == [a] + Split(b, sep)
    decreases |a|
  {
    if |a| == 0 {
      assert a + [sep] + b == [sep] + b;
      assert ([sep] + b)[1..] == b;
    } else {
      var s := a + [sep] + b;
      assert s[0] == a[0];
      assert s[1..] == a[1..] + [sep] + b;
      SplitAfterPiece(a[1..], sep, b);
      var rest := Split(s[1..], sep);
      assert rest[0] == a[1..] && rest[1..] == Split(b, sep);
      assert [a[0]] + a[1..] == a;
    }
  }

  lemma SplitSinglePiece(a: string, sep: char)
    requires sep !in a
    ensures Split(a, sep) == [a]
    decreases |a|
  {
    if |a| > 0 {
      SplitSinglePiece(a[1..], sep);
      assert [a[0]] + a[1..] == a;
    }
  }

  /** The other half of the split/join round trip: splitting a join recovers
      the parts when no part contains the separator. */
  lemma {:induction false} SplitJoin(parts: seq<string>, sep: char)
    requires |parts| >= 1
    requires forall i :: 0 <= i < |parts| ==> sep !in parts[i]
    ensures Split(Join(parts, [sep]), sep) == parts
    decreases |parts|
  {
    if |parts| == 1 {
      SplitSinglePiece(parts[0], sep);
    } else {
      SplitJoin(parts[1..], sep);
      SplitAfterPiece(parts[0], sep, Join(parts[1..], [sep]));
      assert [parts[0]] + parts[1..] == parts;
    }
  }

  // ---------------------------------------------------------------------
  // Regex-style scanning

  /** Length of the run of digits that starts at index `i` of `s` (what a
      greedy `\d+` or `\d*` consumes there). */
  function DigitsFrom(s: string, i: nat): (n: nat)
    requires i <= |s|
    ensures i + n <= |s|
    ensures forall k :: i <= k < i + n ==> IsDigit(s[k])
    ensures i + n == |s| || !IsDigit(s[i + n])
    decreases |s| - i
  {
    if i < |s| && IsDigit(s[i]) then 1 + DigitsFrom(s, i + 1) else 0
  }

  /** The pattern `lit` followed by `digits` digits (`lit\d{digits}`) matches
      `s` at position `p`. */
  predicate MatchesAt(s: string, lit: string, digits: nat, p: int)
  {
    && 0 <= p
    && p + |lit| + digits <= |s|
    && s[p..p + |lit|] == lit
    && forall k :: p + |lit| <= k < p + |lit| + digits ==> IsDigit(s[k])
  }

  /** `re.search` for `lit\d{digits}` from position `from`: the leftmost
      position at or after `from` where the pattern matches. */
  function FirstMatch(s: string, lit: string, digits: nat, from: nat): (r: Option<nat>)
    ensures r.Some? ==> from <= r.value && MatchesAt(s, lit, digits, r.value)
    ensures forall q :: from <= q && (r.None? || q < r.value) ==> !MatchesAt(s, lit, digits, q)
    decreases |s| - from
  {
    if from + |lit| + digits > |s| then None
    else if MatchesAt(s, lit, digits, from) then Some(from)
    else FirstMatch(s, lit, digits, from + 1)
  }

  /** Where the pattern matches at `p`, the search from any earlier
      position finds a match no later than `p`. */
  lemma FirstMatchNoLater(s: string, lit: string, digits: nat, from: nat, p: int)
    requires from <= p && MatchesAt(s, lit, digits, p)
    ensures FirstMatch(s, lit, digits, from).Some?
    ensures FirstMatch(s, lit, digits, from).value <= p
  {
  }

  /** `p` is where `re.search(lit\d{digits}, s)` matches. */
  ghost predicate FirstMatchAt(s: string, lit: string, digits: nat, p: int)
  {
    MatchesAt(s, lit, digits, p) && forall q :: 0 <= q < p ==> !MatchesAt(s, lit, digits, q)
  }
}

=== FILE: wrappers.dfy ===
/** The optional value that the pattern searches, retry loops and parsers
    return. */
module Wrappers {
  datatype Option<+T> = None | Some(value: T)
}
